=== FILE: README.md ===
# NAS CORS proxy — a Dafny model

The proxy (`proxy.js`) is a small Node.js HTTP server. It lets a browser page
read JSON backup files from a NAS that sends no CORS headers. It answers CORS
preflights itself and offers two actions under `/proxy`:

- `action=list` issues a WebDAV `PROPFIND` of `/DataBackup/` on the NAS
  (192.168.31.2:5005). It scans the 207 Multi-Status body with regular
  expressions and returns the `.json` files it lists as JSON, newest first.
- `url=<target>` forwards a `GET` to an arbitrary URL. It streams the answer
  back with three CORS headers added.

Credentials are never stored. The caller's `Authorization` header is passed
through verbatim. Failing that, a Basic credential is built from the
`X-NAS-Username` / `X-NAS-Password` headers.

The model consists of these modules:

- `Router`: the request handler's decision. It either answers at once
  (preflight, 404, the two 400s) or starts the listing or the forwarding
  request.
- `Credentials`: how the forwarded credential is resolved, with JavaScript
  truthiness. It is built on a full model of `Buffer.from(str).toString('base64')`:
  `Utf8` implements RFC 3629 and `Base64` implements section 4 of RFC 4648.
  Each has a strict decoder, and round trips are proved in both directions.
- `Outbound`: the options object handed to `http.request` / `https.request`.
- `Text`: the regular-expression semantics the parser relies on. This is the
  leftmost, lazy match of `open(.*?)close`, where `.` stops at line
  terminators and `[\s\S]` does not. It also covers `split('/').pop()`.
- `Listing` and `Ordering`: `parseWebDAVResponse`, including the global
  `exec` loop that resumes after each match, and its comparator sort.
- `Responses`: the outcome → response state machine. Events from the
  outbound request (response, error, timeout, synchronous exception) act on
  an exchange that records the written responses, whether the outbound
  request was destroyed, and the uncaught exception that ended the process,
  if any. Besides the paths as written, it has the listing path as evidently
  intended: guarded listeners, and the backend's reason phrase in the
  failure text (see "## Findings").

Three behaviours of `proxy.js` are easy to miss:

- An empty `X-NAS-Username` or `X-NAS-Password` (or an empty `Authorization`)
  counts as absent, because the code tests truthiness.
- An unparsable `<d:getlastmodified>` does not give a `null` date. The code
  calls `new Date(text).toISOString()`, which throws `RangeError`. That
  exception escapes the `end` listener and ends the process, so
  `ParseWebDAVResponse` returns a `Failure` and the listing path records an
  `UncaughtParseError`.
- On the forwarding path, only the backend's own answer gains CORS headers.
  The proxy's 502 (transport error) and 504 (timeout) answers there carry
  only `Content-Type: text/plain; charset=utf-8`, with no `Access-Control-*`
  header, so a browser page cannot read them. The listing path's error
  answers do carry `Access-Control-Allow-Origin: *`.

## Model

| member | source | states |
|---|---|---|
| Router.RouteOf | proxy.js:145-178 | OPTIONS is a preflight whatever the path. Any other path than `/proxy` is 404. On `/proxy`, `action=list` is the listing, otherwise a truthy `url` is a forward of that URL. Neither is "missing parameter". Each case is stated as an if-and-only-if on the request. |
| Router.DispatchOf | proxy.js:145-186 | A preflight gets 200 with exactly the three CORS headers and no body. 404 exactly for the not-found route. 400 exactly for a missing parameter or a URL that does not parse. The listing starts exactly for `action=list`, with the listing request. A forward starts exactly for a parsable URL, with the request built from its parts. |
| Router.RejectionsCarryNoCors | proxy.js:168-185 | The handler's own 400 and 404 answers carry no `Access-Control-*` header. |
| Router.ListWinsOverUrl | proxy.js:161-165 | With both `action=list` and `url`, the listing is started and nothing is forwarded. |
| Router.OutboundOnlyForProxyActions | proxy.js:145-186 | An outbound request is started exactly for the listing route or a parsable forward target. Every other request is answered without one. |
| Credentials.ResolveAuthorization | proxy.js:188-198 | A truthy `authorization` header is forwarded verbatim. Otherwise a truthy username and password give a value that decodes as Basic to the UTF-8 octets of `username:password`. The result is absent exactly when neither source is present, and never empty. |
| Credentials.SplitUserPass | proxy.js:196 | Splitting a user-pass at its first colon gives two parts that rejoin to the input, the first without a colon. There is no result exactly when the input has no colon. |
| Credentials.BasicRoundTrip | proxy.js:196 | The Basic value built from a username without a colon, and any password, decodes (base64, then UTF-8, then split at the first colon) back to exactly that pair. |
| Base64.DecodeEncode | proxy.js:196 | Strict base64 decoding of `toString('base64')` gives back the octets. |
| Base64.EncodeDecode | proxy.js:196 | Every string the strict decoder accepts is exactly the encoding of what it decodes to, so encoding is a bijection onto canonical base64. |
| Base64.EncodeLength | proxy.js:196 | The encoding is four characters for every started group of three octets. |
| Utf8.DecodeEncode | proxy.js:196 | Strict UTF-8 decoding of `Buffer.from(str)` gives back the string. |
| Utf8.EncodeDecode | proxy.js:196 | Every octet sequence the strict decoder accepts is exactly the encoding of what it decodes to. |
| Outbound.WithAuthorization | proxy.js:42-44 | `Authorization` is added exactly when a credential resolves, with the resolved value. Every other header is left unchanged. |
| Outbound.ListRequest | proxy.js:20-44 | The listing request is a plain-HTTP `PROPFIND` to 192.168.31.2:5005 on `/DataBackup/`. It carries `Depth: 1`, `Accept: */*` and a 15 s timeout. `Authorization` is present exactly when a credential resolves, and no other header is sent. |
| Outbound.ForwardRequest | proxy.js:200-217 | `https:` selects TLS. The hostname is the URL's. An explicit port is kept, otherwise 443 for `https:` and 80 for anything else. The path is pathname plus search. It is a `GET` with `Accept: */*` and a 15 s timeout. `Authorization` is present exactly when a credential resolves. |
| Outbound.SameAuthorizationOnBothPaths | proxy.js:20-27 | The listing and the forwarding path forward the same credential: a truthy `authorization` header verbatim, otherwise the Basic value of the custom header pair. |
| Text.LazyMatch | proxy.js:107-110 | The match of `open(X*?)close` from an index. Its opening is the leftmost one that admits any match, and its closing delimiter is the nearest one after that opening. Without dotAll, the captured text has no line terminator. |
| Text.TagContent | proxy.js:114-118 | `s.match(/open(.*?)close/)[1]`. There is no result exactly when no single-line delimited match exists. Otherwise the result is the single-line text after the leftmost opening that admits a match, up to the nearest closing delimiter after it. |
| Text.LastSegment | proxy.js:127 | `split('/').pop()`: a suffix of the input that contains no '/', is preceded by a '/', or is the whole input. |
| Listing.Matches | proxy.js:107-111 | The match positions are exactly what repeated `exec` calls of the global `<d:response>` regex give. Each match is the leftmost lazy match from where the previous one ended, right after its closing tag. The search after the last match finds nothing. |
| Listing.ChainsUnique | proxy.js:107-111 | That description of the loop fixes the matches: two sequences that both meet it are equal. |
| Listing.Blocks | proxy.js:107-111 | The blocks are the bodies of the loop's matches, one per match and in order. There are none exactly when no complete element starts at or after the scan position. Otherwise the first block is the body of the leftmost such element. No block contains `</d:response>`. |
| Listing.ModifiedTime | proxy.js:122-124 | There is no time exactly when the block has no `<d:getlastmodified>`. The result is an exception exactly when the date does not parse. Otherwise it is the parsed time. |
| Listing.EntryOf | proxy.js:113-134 | A block is skipped exactly when it has no href or the href does not end in `.json`. It throws exactly when a `.json` block has an unparsable modification date. Otherwise it gives an entry whose path is the href, whose name is the href's last segment (itself ending in `.json`), whose URL is the NAS origin plus the href, and whose time is the parsed date, or none without a date element. |
| Listing.Collect | proxy.js:110-135 | The scan succeeds exactly when no block throws. Every listed entry comes from some block and every block's entry is listed. There are no more entries than blocks. |
| Listing.ParseWebDAVResponse | proxy.js:103-143 | The result is a permutation of the collected entries. It is ordered by the comparator and keeps the undated entries in the order the scan collected them. It fails exactly when the scan fails. |
| Listing.Producers | proxy.js:110-118 | The positions of the blocks that yield an entry, from a scan position on: each such position exactly once, in increasing order, and no other. |
| Listing.CollectInBlockOrder | proxy.js:110-135 | A successful scan lists exactly one entry per `.json` block, in block order: the entry of each contributing block, as many times as such blocks occur. |
| Listing.ListedEntries | proxy.js:103-143 | A successful listing holds exactly one entry per `.json` block (the multiset of the block entries, so duplicates are kept), each well shaped. Its undated entries are those of the blocks, in block order. |
| Listing.EmptyWithoutBlocks | proxy.js:107-110 | A body without a complete `<d:response>` element lists nothing. |
| Ordering.Insert | proxy.js:138-142 | Insertion adds exactly one copy of the entry (multiset equality). |
| Ordering.InsertKeepsOrder | proxy.js:138-142 | Inserting into a list ordered by the comparator keeps it ordered. |
| Ordering.SortNewestFirst | proxy.js:138-142 | The sort is a permutation of its input and ordered by the comparator, and the undated entries keep their order. |
| Ordering.NewestFirstMeans | proxy.js:138-142 | Being ordered by the comparator means two things: every dated entry precedes every undated one, and a later dated entry is never newer than an earlier one (both directions). |
| Ordering.ThreeEntryOrder | proxy.js:138-142 | Two dated entries and an undated one come out newer, older, undated, whatever their order in the document. |
| Responses.WithCors | proxy.js:220-225 | The backend's headers gain exactly the three CORS names (origin `*`, the methods, the allowed headers). Every other header passes through unchanged. |
| Responses.ListStep | proxy.js:55-98 | One event on the listing path as written. After a fault nothing changes. Without a prior head, every event writes exactly one response that grants any origin. The exception is a 207 whose body does not parse, which faults. After a head, every such event throws `ERR_HTTP_HEADERS_SENT` and writes nothing more. The request is destroyed exactly on a timeout. |
| Responses.GuardedListStep | proxy.js:73-89 | The listing step with its error and timeout listeners guarded by `headersSent`. It agrees with `ListStep` except when a head was sent and the event is an error or a timeout. Such an event writes nothing and adds no fault; a timeout still destroys the request. |
| Responses.IntendedListStep | proxy.js:63-68 | The corrected listing step. A status other than 207, before any head, gets its status code and the text `Failed to list files: <code> <reason phrase>`, without a fault. Every other case is handled as `GuardedListStep` handles it. |
| Responses.ForwardStep | proxy.js:219-248 | One event on the forwarding path. After a fault nothing changes. It throws for a second head exactly when a backend response arrives after a head was sent. Errors and timeouts never fault, and write nothing once a head was sent. A synchronous exception is uncaught and writes nothing. Without a head, every other event writes exactly one response. The request is destroyed exactly on a timeout. |
| Responses.ListOutcome | proxy.js:55-98 | First event on the listing path: 207 gives 200 with the parsed files as JSON, or the process dies on an unparsable date. Any other status passes through as text. An error gives 502 with `Proxy error: <message>`. A timeout destroys the request and gives 504 with `Request timeout`. A synchronous exception gives 500 with `Server error: <message>`. These text answers all carry `text/plain` and `Access-Control-Allow-Origin: *`. |
| Responses.ListAllowsAnyOrigin | proxy.js:58-97 | Every response written on the listing path carries `Access-Control-Allow-Origin: *`. |
| Responses.AtMostOneResponse | proxy.js:55-98 | On every path, for every event sequence, at most one response is written. Once one is written, nothing replaces it. |
| Responses.ForwardWritesOnce | proxy.js:219-248 | On the forwarding path a well-formed event sequence never throws for a second head. A backend response is passed through with its status and CORS headers added. A first error gives 502 with "代理请求失败: " and the error's message. A first timeout gives 504 with "请求超时". Both carry only `Content-Type: text/plain; charset=utf-8`. A timeout always destroys the request. |
| Responses.ForwardErrorsCarryNoCors | proxy.js:229-247 | The forwarding path's own 502 and 504 answers carry no `Access-Control-*` header. |
| Responses.ForwardLateEventsHarmless | proxy.js:229-248 | Errors and timeouts never add a fault on the forwarding path, and change nothing once a head was sent. |
| Responses.ListTimeoutThenErrorFaults | proxy.js:73-89 | On the listing path as written, a timeout followed by the "socket hang up" error of the destroyed request throws `ERR_HTTP_HEADERS_SENT`. |
| Responses.GuardedAgreesOnFirstEvent | proxy.js:55-98 | Guarding the listing listeners with `headersSent` changes nothing about the answer to the first event. |
| Responses.GuardedListWritesOnce | proxy.js:73-89 | With the guard, a well-formed event sequence on the listing path never throws for a second head. |
| Responses.ListFailureSaysUndefined | proxy.js:63-68 | As written, every answer to a status other than 207 reads `Failed to list files: <code> undefined`, whatever the reason phrase. A 404 `Not Found` gives `Failed to list files: 404 undefined`. |
| Responses.IntendedReportsReason | proxy.js:63-68 | On the corrected listing path, a first response with a status other than 207 is answered with that status and `Failed to list files: <code> <reason phrase>`. No later error or timeout changes it or faults. |
| Responses.IntendedListWritesOnce | proxy.js:55-98 | The corrected listing path never throws for a second head on a well-formed event sequence. |

## Left out

- Server start-up, `listen` on port 8000, the `SIGINT` handler and all console
  logging. They are I/O with no effect on responses.
- The sockets themselves. Streaming the backend's body (`proxyRes.pipe(res)`)
  is the opaque body `Piped`. Buffering the listing's body before the `end`
  event is the string carried by the `Responded` event.
- The 15 s timer. The socket idle timeout is the `TimedOut` event, and the
  event orders Node produces are the predicate `Responses.WellFormed`.
- `new Date(text)` is the parameter `parseDate`, which gives `None` for an
  Invalid Date. Formatting the time as an ISO string is not modelled: entries
  carry the time in milliseconds, which is all the comparator reads.
  Comparing two times that are equal as instants is therefore exact.
- `new URL(target)` is the parameter `parseUrl`, which gives `None` where the
  constructor throws. The model keeps the URL's protocol, hostname, port,
  pathname and search. `url.parse(req.url, true)` is taken as already done:
  a request carries its pathname and query.
- Text is a sequence of Unicode scalar values. JavaScript strings are UTF-16
  code units, and a lone surrogate (which `Buffer.from` replaces with
  U+FFFD) is not modelled.
- Ordering.SortNewestFirst: the comparator answers 1 both ways for two
  undated entries, so the language does not fix their relative order. The
  model keeps document order, which is one admissible outcome. The contract
  promises no more about undated entries than `proxy.js` does, apart from
  that choice.
- Node lowercases inbound header names. The model's header maps hold those
  lower-case names.
- A repeated query parameter arrives as an array. A repeated `action` never
  equals `'list'` (proxy.js:161). A repeated `url` is truthy, and
  `new URL(array)` parses the array's comma-joined string (proxy.js:181). The
  model's `Router.UrlText` stands for that string conversion.
- The credential built from a username that contains a colon cannot be split
  back unambiguously. This is a limit of RFC 7617, not of the proxy, and
  Credentials.BasicRoundTrip requires a username without one.
- Parsing the same body twice gives the same result. This is not stated as a
  lemma, because `Listing.ParseWebDAVResponse` is a function and so is
  deterministic by construction.
- The companion `proxy.py` is not part of this model.

## Findings

| source | as written | input that shows it | evidently intended | confidence | as-written member | corrected member |
|---|---|---|---|---|---|---|
| proxy.js:73-89 | The listing path's `error` listener calls `res.writeHead(502)` without checking `res.headersSent`. | The backend stays silent for 15 s. The `timeout` listener writes 504 and calls `proxyReq.destroy()`, which emits an `error` ("socket hang up"). The unguarded `writeHead` then throws `ERR_HTTP_HEADERS_SENT` inside an event listener, and the process exits. | Guard both listeners with `headersSent`, as the forwarding path does at proxy.js:231-247. | medium; not executed | Responses.ListTimeoutThenErrorFaults | Responses.GuardedListWritesOnce |
| proxy.js:68 | The answer to a status other than 207 interpolates `proxyRes.statusText`. Node's `http.IncomingMessage` has no such property; the reason phrase is `statusMessage`. | The NAS answers the `PROPFIND` with `404 Not Found`. The proxy answers 404 with the body `Failed to list files: 404 undefined`. | Interpolate `proxyRes.statusMessage`, giving `Failed to list files: 404 Not Found`. | high; not executed | Responses.ListFailureSaysUndefined | Responses.IntendedReportsReason |

=== FILE: base64.dfy ===
/**
 * The base 64 encoding of section 4 of RFC 4648 (standard alphabet, with '='
 * padding), as `Buffer.prototype.toString('base64')` produces it, together with
 * the strict decoder that inverts it.
 */
module Base64 {
  import opened Wrappers
  import opened Bytes

  type sextet = x: int | 0 <= x < 64

  predicate IsAlphabetChar(c: char) {
    ('A' <= c <= 'Z') || ('a' <= c <= 'z') || ('0' <= c <= '9') || c == '+' || c == '/'
  }

  /** Table 1 of RFC 4648: the character that encodes a 6-bit value. */
  function CharOf(x: sextet): (c: char)
    ensures IsAlphabetChar(c) && c != '='
  {
    if x < 26 then ('A' as int + x) as char
    else if x < 52 then ('a' as int + (x - 26)) as char
    else if x < 62 then ('0' as int + (x - 52)) as char
    else if x == 62 then '+'
    else '/'
  }

  /** The 6-bit value an alphabet character stands for. */
  function ValueOf(c: char): (x: sextet)
    requires IsAlphabetChar(c)
  {
    if 'A' <= c <= 'Z' then c as int - 'A' as int
    else if 'a' <= c <= 'z' then c as int - 'a' as int + 26
    else if '0' <= c <= '9' then c as int - '0' as int + 52
    else if c == '+' then 62
    else 63
  }

  /** Three octets as four characters (section 4 of RFC 4648). */
  function EncodeGroup(b0: byte, b1: byte, b2: byte): string {
    [CharOf(b0 / 4), CharOf((b0 % 4) * 16 + b1 / 16), CharOf((b1 % 16) * 4 + b2 / 64), CharOf(b2 % 64)]
  }

  /** A final single octet: two characters and "==". */
  function EncodeOne(b0: byte): string {
    [CharOf(b0 / 4), CharOf((b0 % 4) * 16), '=', '=']
  }

  /** A final pair of octets: three characters and "=". */
  function EncodeTwo(b0: byte, b1: byte): string {
    [CharOf(b0 / 4), CharOf((b0 % 4) * 16 + b1 / 16), CharOf((b1 % 16) * 4), '=']
  }

  /** The encoding of `b`: full groups, then one padded quantum for the 1 or 2 octets left over. */
  function Encode(b: seq<byte>): (s: string)
    ensures |s| == 0 <==> |b| == 0
  {
    if |b| == 0 then []
    else if |b| == 1 then EncodeOne(b[0])
    else if |b| == 2 then EncodeTwo(b[0], b[1])
    else EncodeGroup(b[0], b[1], b[2]) + Encode(b[3..])
  }

  /** Four alphabet characters as three octets. */
  function DecodeThree(c0: char, c1: char, c2: char, c3: char): Option<seq<byte>> {
    if IsAlphabetChar(c0) && IsAlphabetChar(c1) && IsAlphabetChar(c2) && IsAlphabetChar(c3) then
      var x0, x1, x2, x3 := ValueOf(c0), ValueOf(c1), ValueOf(c2), ValueOf(c3);
      Some([x0 * 4 + x1 / 16, (x1 % 16) * 16 + x2 / 4, (x2 % 4) * 64 + x3])
    else None
  }

  function DecodeGroup(q: string): Option<seq<byte>>
    requires |q| == 4
  {
    DecodeThree(q[0], q[1], q[2], q[3])
  }

  /** "xx==" as one octet; the four bits below it must be zero (canonical encoding, section 3.5 of RFC 4648). */
  function DecodeOne(c0: char, c1: char): Option<seq<byte>> {
    if IsAlphabetChar(c0) && IsAlphabetChar(c1) && ValueOf(c1) % 16 == 0 then
      Some([ValueOf(c0) * 4 + ValueOf(c1) / 16])
    else None
  }

  /** "xxx=" as two octets; the two bits below them must be zero. */
  function DecodeTwo(c0: char, c1: char, c2: char): Option<seq<byte>> {
    if IsAlphabetChar(c0) && IsAlphabetChar(c1) && IsAlphabetChar(c2) && ValueOf(c2) % 4 == 0 then
      var x0, x1, x2 := ValueOf(c0), ValueOf(c1), ValueOf(c2);
      Some([x0 * 4 + x1 / 16, (x1 % 16) * 16 + x2 / 4])
    else None
  }

  /** The final quantum, which may carry "==" (one octet) or "=" (two octets). */
  function DecodeFinal(q: string): Option<seq<byte>>
    requires |q| == 4
  {
    if q[2] == '=' && q[3] == '=' then DecodeOne(q[0], q[1])
    else if q[3] == '=' then DecodeTwo(q[0], q[1], q[2])
    else DecodeGroup(q)
  }

  /** Strict decoding: whole quanta, padding only in the last one, canonical padding bits. */
  function Decode(s: string): Option<seq<byte>>
    decreases |s|
  {
    if |s| == 0 then Some([])
    else if |s| < 4 then None
    else if |s| == 4 then DecodeFinal(s)
    else
      match DecodeGroup(s[..4])
      case None => None
      case Some(head) =>
        match Decode(s[4..])
        case None => None
        case Some(tail) => Some(head + tail)
  }

  lemma ValueOfCharOf(x: sextet)
    ensures ValueOf(CharOf(x)) == x
  {
  }

  lemma CharOfValueOf(c: char)
    requires IsAlphabetChar(c)
    ensures CharOf(ValueOf(c)) == c
  {
    if 'A' <= c <= 'Z' {
    } else if 'a' <= c <= 'z' {
    } else if '0' <= c <= '9' {
    }
  }

  /** Octets to sextets and back. */
  lemma OctetsToSextets(b0: int, b1: int, b2: int)
    requires 0 <= b0 < 256 && 0 <= b1 < 256 && 0 <= b2 < 256
    ensures var x1, x2 := (b0 % 4) * 16 + b1 / 16, (b1 % 16) * 4 + b2 / 64;
      && (b0 / 4) * 4 + x1 / 16 == b0
      && (x1 % 16) * 16 + x2 / 4 == b1
      && (x2 % 4) * 64 + b2 % 64 == b2
  {
  }

  /** Sextets to octets and back. */
  lemma SextetsToOctets(x0: int, x1: int, x2: int, x3: int)
    requires 0 <= x0 < 64 && 0 <= x1 < 64 && 0 <= x2 < 64 && 0 <= x3 < 64
    ensures var b0, b1, b2 := x0 * 4 + x1 / 16, (x1 % 16) * 16 + x2 / 4, (x2 % 4) * 64 + x3;
      && b0 / 4 == x0
      && (b0 % 4) * 16 + b1 / 16 == x1
      && (b1 % 16) * 4 + b2 / 64 == x2
      && b2 % 64 == x3
  {
  }

  lemma GroupRoundTrip(b0: byte, b1: byte, b2: byte)
    ensures DecodeGroup(EncodeGroup(b0, b1, b2)) == Some([b0, b1, b2])
  {
    var x0: int, x1: int, x2: int, x3: int := b0 / 4, (b0 % 4) * 16 + b1 / 16, (b1 % 16) * 4 + b2 / 64, b2 % 64;
    OctetsToSextets(b0, b1, b2);
    ValueOfCharOf(x0);
    ValueOfCharOf(x1);
    ValueOfCharOf(x2);
    ValueOfCharOf(x3);
    assert DecodeThree(CharOf(x0), CharOf(x1), CharOf(x2), CharOf(x3)) == Some([x0 * 4 + x1 / 16, (x1 % 16) * 16 + x2 / 4, (x2 % 4) * 64 + x3]);
  }

  lemma OneRoundTrip(b0: byte)
    ensures DecodeFinal(EncodeOne(b0)) == Some([b0])
  {
    var x0: int, x1: int := b0 / 4, (b0 % 4) * 16;
    OctetsToSextets(b0, 0, 0);
    ValueOfCharOf(x0);
    ValueOfCharOf(x1);
    assert DecodeOne(CharOf(x0), CharOf(x1)) == Some([x0 * 4 + x1 / 16]);
  }

  lemma TwoRoundTrip(b0: byte, b1: byte)
    ensures DecodeFinal(EncodeTwo(b0, b1)) == Some([b0, b1])
  {
    var x0: int, x1: int, x2: int := b0 / 4, (b0 % 4) * 16 + b1 / 16, (b1 % 16) * 4;
    OctetsToSextets(b0, b1, 0);
    ValueOfCharOf(x0);
    ValueOfCharOf(x1);
    ValueOfCharOf(x2);
    assert DecodeTwo(CharOf(x0), CharOf(x1), CharOf(x2)) == Some([x0 * 4 + x1 / 16, (x1 % 16) * 16 + x2 / 4]);
  }

  /** A full leading quantum decodes independently of what follows it. */
  lemma DecodeCons(q: string, rest: string, head: seq<byte>, tail: seq<byte>)
    requires |q| == 4 && |rest| > 0
    requires DecodeGroup(q) == Some(head) && Decode(rest) == Some(tail)
    ensures Decode(q + rest) == Some(head + tail)
  {
    assert (q + rest)[..4] == q;
    assert (q + rest)[4..] == rest;
  }

  lemma GroupFinalRoundTrip(b0: byte, b1: byte, b2: byte)
    ensures DecodeFinal(EncodeGroup(b0, b1, b2)) == Some([b0, b1, b2])
  {
    GroupRoundTrip(b0, b1, b2);
  }

  /** A lone quantum is decoded as the final one. */
  lemma DecodeQuantum(s: string)
    requires |s| == 4
    ensures Decode(s) == DecodeFinal(s)
  {
  }

  /** One to three octets make a single quantum. */
  lemma EncodeShort(b: seq<byte>)
    requires 1 <= |b| <= 3
    ensures |b| == 1 ==> Encode(b) == EncodeOne(b[0])
    ensures |b| == 2 ==> Encode(b) == EncodeTwo(b[0], b[1])
    ensures |b| == 3 ==> Encode(b) == EncodeGroup(b[0], b[1], b[2])
  {
    if |b| == 3 {
      EncodeCons(b);
      assert Encode(b[3..]) == [];
    }
  }

  lemma ShortSeq(b: seq<byte>)
    requires 1 <= |b| <= 3
    ensures |b| == 1 ==> b == [b[0]]
    ensures |b| == 2 ==> b == [b[0], b[1]]
    ensures |b| == 3 ==> b == [b[0], b[1], b[2]]
  {
  }

  lemma LastQuantumRoundTrip(b: seq<byte>)
    requires 1 <= |b| <= 3
    ensures Decode(Encode(b)) == Some(b)
  {
    EncodeShort(b);
    DecodeQuantum(Encode(b));
    ShortSeq(b);
    if |b| == 3 {
      GroupFinalRoundTrip(b[0], b[1], b[2]);
    } else if |b| == 2 {
      TwoRoundTrip(b[0], b[1]);
    } else {
      OneRoundTrip(b[0]);
    }
  }

  /** Every started group of three octets costs four characters. */
  lemma {:induction false} EncodeLength(b: seq<byte>)
    ensures |Encode(b)| == (|b| + 2) / 3 * 4
    decreases |b|
  {
    if |b| > 2 {
      EncodeLength(b[3..]);
      EncodeCons(b);
      var n := |b[3..]|;
      assert (n + 3 + 2) / 3 == (n + 2) / 3 + 1;
    }
  }

  /** Decoding inverts encoding. */
  lemma {:induction false} DecodeEncode(b: seq<byte>)
    ensures Decode(Encode(b)) == Some(b)
    decreases |b|
  {
    if 1 <= |b| <= 3 {
      LastQuantumRoundTrip(b);
    } else if |b| > 3 {
      DecodeEncode(b[3..]);
      GroupThenRest(b);
    }
  }

  /** One full group in front of a tail that already round-trips. */
  lemma GroupThenRest(b: seq<byte>)
    requires |b| > 3 && Decode(Encode(b[3..])) == Some(b[3..])
    ensures Decode(Encode(b)) == Some(b)
  {
    var q, rest := EncodeGroup(b[0], b[1], b[2]), Encode(b[3..]);
    EncodeCons(b);
    GroupRoundTrip(b[0], b[1], b[2]);
    DecodeCons(q, rest, [b[0], b[1], b[2]], b[3..]);
    HeadThenTail(b);
  }

  lemma HeadThenTail(b: seq<byte>)
    requires |b| > 2
    ensures [b[0], b[1], b[2]] + b[3..] == b
  {
  }

  lemma EncodeCons(b: seq<byte>)
    requires |b| > 2
    ensures Encode(b) == EncodeGroup(b[0], b[1], b[2]) + Encode(b[3..])
  {
  }

  lemma ThreeDecodeRoundTrip(c0: char, c1: char, c2: char, c3: char)
    requires DecodeThree(c0, c1, c2, c3).Some?
    ensures var d := DecodeThree(c0, c1, c2, c3).value; EncodeGroup(d[0], d[1], d[2]) == [c0, c1, c2, c3]
  {
    var x0: int, x1: int, x2: int, x3: int := ValueOf(c0), ValueOf(c1), ValueOf(c2), ValueOf(c3);
    var b0, b1, b2 := x0 * 4 + x1 / 16, (x1 % 16) * 16 + x2 / 4, (x2 % 4) * 64 + x3;
    assert DecodeThree(c0, c1, c2, c3).value == [b0, b1, b2];
    SextetsToOctets(x0, x1, x2, x3);
    assert b0 / 4 == x0 && (b0 % 4) * 16 + b1 / 16 == x1 && (b1 % 16) * 4 + b2 / 64 == x2 && b2 % 64 == x3;
    CharOfValueOf(c0);
    CharOfValueOf(c1);
    CharOfValueOf(c2);
    CharOfValueOf(c3);
    assert EncodeGroup(b0, b1, b2) == [CharOf(x0), CharOf(x1), CharOf(x2), CharOf(x3)];
  }

  lemma GroupDecodeRoundTrip(q: string)
    requires |q| == 4 && DecodeGroup(q).Some?
    ensures var d := DecodeGroup(q).value; EncodeGroup(d[0], d[1], d[2]) == q
  {
    ThreeDecodeRoundTrip(q[0], q[1], q[2], q[3]);
    assert q == [q[0], q[1], q[2], q[3]];
  }

  lemma OneDecodeRoundTrip(c0: char, c1: char)
    requires DecodeOne(c0, c1).Some?
    ensures Encode(DecodeOne(c0, c1).value) == [c0, c1, '=', '=']
  {
    var x0: int, x1: int := ValueOf(c0), ValueOf(c1);
    var b0 := x0 * 4 + x1 / 16;
    assert DecodeOne(c0, c1).value == [b0];
    SextetsToOctets(x0, x1, 0, 0);
    assert b0 / 4 == x0 && (b0 % 4) * 16 == x1;
    CharOfValueOf(c0);
    CharOfValueOf(c1);
    assert Encode([b0]) == EncodeOne(b0) == [CharOf(x0), CharOf(x1), '=', '='];
  }

  lemma TwoDecodeRoundTrip(c0: char, c1: char, c2: char)
    requires DecodeTwo(c0, c1, c2).Some?
    ensures Encode(DecodeTwo(c0, c1, c2).value) == [c0, c1, c2, '=']
  {
    var x0: int, x1: int, x2: int := ValueOf(c0), ValueOf(c1), ValueOf(c2);
    var b0, b1 := x0 * 4 + x1 / 16, (x1 % 16) * 16 + x2 / 4;
    assert DecodeTwo(c0, c1, c2).value == [b0, b1];
    SextetsToOctets(x0, x1, x2, 0);
    assert b0 / 4 == x0 && (b0 % 4) * 16 + b1 / 16 == x1 && (b1 % 16) * 4 == x2;
    CharOfValueOf(c0);
    CharOfValueOf(c1);
    CharOfValueOf(c2);
    assert Encode([b0, b1]) == EncodeTwo(b0, b1) == [CharOf(x0), CharOf(x1), CharOf(x2), '='];
  }

  lemma FinalDecodeRoundTrip(q: string)
    requires |q| == 4 && DecodeFinal(q).Some?
    ensures Encode(DecodeFinal(q).value) == q
  {
    if q[2] == '=' && q[3] == '=' {
      OneDecodeRoundTrip(q[0], q[1]);
      assert q == [q[0], q[1], '=', '='];
    } else if q[3] == '=' {
      TwoDecodeRoundTrip(q[0], q[1], q[2]);
      assert q == [q[0], q[1], q[2], '='];
    } else {
      GroupDecodeRoundTrip(q);
      var d := DecodeGroup(q).value;
      assert Encode(d) == EncodeGroup(d[0], d[1], d[2]) + Encode([]);
    }
  }

  /** Encoding inverts decoding: every accepted string is the encoding of what it decodes to. */
  lemma {:induction false} EncodeDecode(s: string)
    requires Decode(s).Some?
    ensures Encode(Decode(s).value) == s
    decreases |s|
  {
    if |s| == 4 {
      FinalDecodeRoundTrip(s);
    } else if |s| > 4 {
      var head := DecodeGroup(s[..4]).value;
      var tail := Decode(s[4..]).value;
      GroupDecodeRoundTrip(s[..4]);
      EncodeDecode(s[4..]);
      assert |tail| > 0;
      var b := head + tail;
      assert b[3..] == tail;
      assert s == s[..4] + s[4..];
    }
  }
}

=== FILE: bytes.dfy ===
/** Octets, as Node's `Buffer` holds them. */
module Bytes {
  type byte = b: int | 0 <= b < 256
}

=== FILE: config.dfy ===
/** The proxy's fixed configuration: the storage server it lists and its request timeout. */
module Config {
  import Text

  /** The storage server (NAS) the listing action talks to. */
  const NasHost: string := "192.168.31.2"
  const NasPort: nat := 5005

  /** `http://${NAS_HOST}:${NAS_PORT}`, the prefix of every listed file's URL. */
  const NasOrigin: string := "http://" + NasHost + ":" + Text.Decimal(NasPort)

  /** The WebDAV collection that holds the backups. */
  const ListPath: string := "/DataBackup/"

  /** The socket idle timeout of every outbound request, in milliseconds. */
  const TimeoutMs: nat := 15000
}

=== FILE: credentials.dfy ===
/**
 * The credential the proxy forwards: the caller's own `Authorization` header,
 * or a Basic credential (section 2 of RFC 7617) built from the custom
 * `X-NAS-Username` / `X-NAS-Password` headers, or none. Nothing is stored.
 */
module Credentials {
  import opened Wrappers
  import opened Bytes
  import opened Text
  import opened Http
  import Base64
  import Utf8

  const AuthorizationName: string := "authorization"
  const UsernameName: string := "x-nas-username"
  const PasswordName: string := "x-nas-password"

  datatype Credential = Opaque(value: string) | BasicPair(username: string, password: string) | NoCredential

  /** The inbound headers in the proxy's priority order, with JavaScript truthiness. */
  function Resolve(h: Headers): (c: Credential) {
    if Truthy(h, AuthorizationName) then Opaque(h[AuthorizationName])
    else if Truthy(h, UsernameName) && Truthy(h, PasswordName) then BasicPair(h[UsernameName], h[PasswordName])
    else NoCredential
  }

  /** `'Basic ' + Buffer.from(`${username}:${password}`).toString('base64')`. */
  function BasicValue(username: string, password: string): string {
    "Basic " + Base64.Encode(Utf8.Encode(username + ":" + password))
  }

  /** The value the outbound `Authorization` header carries for a credential. */
  function AuthorizationValue(c: Credential): Option<string> {
    match c
    case Opaque(v) => Some(v)
    case BasicPair(u, p) => Some(BasicValue(u, p))
    case NoCredential => None
  }

  /**
   * The variable `authHeader` of `proxy.js`, computed identically by the
   * listing and the forwarding paths.
   */
  function ResolveAuthorization(h: Headers): (r: Option<string>)
    ensures Truthy(h, AuthorizationName) ==> r == Some(h[AuthorizationName])
    ensures !Truthy(h, AuthorizationName) && Truthy(h, UsernameName) && Truthy(h, PasswordName) ==>
      r.Some? && ParseBasic(r.value) == Some(Utf8.Encode(h[UsernameName] + ":" + h[PasswordName]))
    ensures r.None? <==> !Truthy(h, AuthorizationName) && !(Truthy(h, UsernameName) && Truthy(h, PasswordName))
    ensures r.Some? ==> r.value != ""
  {
    var c := Resolve(h);
    match c
    case BasicPair(u, p) =>
      BasicDecodes(u, p);
      AuthorizationValue(c)
    case _ => AuthorizationValue(c)
  }

  /**
   * The receiving side of a Basic credential (section 2 of RFC 7617): the
   * octets of the user-pass, when `v` is "Basic " and canonical base64.
   */
  function ParseBasic(v: string): Option<seq<byte>> {
    if |v| >= 6 && v[..6] == "Basic " then Base64.Decode(v[6..]) else None
  }

  /** The user-id and password of a user-pass: split at its first colon. */
  function SplitUserPass(userPass: string): (r: Option<(string, string)>)
    ensures r.Some? ==> r.value.0 + ":" + r.value.1 == userPass && ':' !in r.value.0
    ensures r.None? <==> ':' !in userPass
  {
    match Find(userPass, ":", 0)
    case None =>
      assert forall i :: 0 <= i < |userPass| ==> userPass[i] != ':' by {
        forall i | 0 <= i < |userPass| ensures userPass[i] != ':' {
          assert !At(userPass, ":", i);
          assert userPass[i..i + 1] == [userPass[i]];
        }
      }
      None
    case Some(k) =>
      assert userPass[..k] + ":" + userPass[k + 1..] == userPass;
      assert forall i :: 0 <= i < k ==> userPass[i] != ':' by {
        forall i | 0 <= i < k ensures userPass[i] != ':' {
          assert !At(userPass, ":", i);
          assert userPass[i..i + 1] == [userPass[i]];
        }
      }
      Some((userPass[..k], userPass[k + 1..]))
  }

  lemma BasicDecodes(username: string, password: string)
    ensures ParseBasic(BasicValue(username, password)) == Some(Utf8.Encode(username + ":" + password))
  {
    var v := BasicValue(username, password);
    assert v[6..] == Base64.Encode(Utf8.Encode(username + ":" + password));
    Base64.DecodeEncode(Utf8.Encode(username + ":" + password));
  }

  /** Splitting at the first colon recovers a user-id that has none. */
  lemma SplitRecovers(username: string, password: string)
    requires ':' !in username
    ensures SplitUserPass(username + ":" + password) == Some((username, password))
  {
    var userPass := username + ":" + password;
    assert userPass[|username|] == ':';
    var (u, p) := SplitUserPass(userPass).value;
    assert |u| == |username|;
    assert u == userPass[..|u|];
    assert p == userPass[|u| + 1..];
  }

  /**
   * The Basic credential carries the pair intact: decoding the header value
   * and splitting at the first colon gives back the user-id and password
   * (RFC 7617 rules out a colon in the user-id).
   */
  lemma BasicRoundTrip(username: string, password: string)
    requires ':' !in username
    ensures var octets := ParseBasic(BasicValue(username, password));
      && octets.Some?
      && Utf8.Decode(octets.value) == Some(username + ":" + password)
      && SplitUserPass(Utf8.Decode(octets.value).value) == Some((username, password))
  {
    BasicDecodes(username, password);
    Utf8.DecodeEncode(username + ":" + password);
    SplitRecovers(username, password);
  }
}

=== FILE: files.dfy ===
/** One listed backup file, as the listing action reports it. */
module Files {
  import opened Wrappers

  /**
   * `lastModified` is the instant in milliseconds since the epoch; `proxy.js`
   * carries it as an ISO-8601 string, which re-parses to the same instant.
   */
  datatype FileEntry = FileEntry(name: string, path: string, lastModified: Option<int>, url: string)
}

=== FILE: http.dfy ===
/** Header mappings, the CORS headers the proxy adds, and the responses it writes. */
module Http {
  import opened Files

  /**
   * A header mapping. Inbound header names are lower-case, as Node's HTTP
   * parser delivers them in `req.headers`.
   */
  type Headers = map<string, string>

  /** JavaScript truthiness of `headers[name]`: present and not the empty string. */
  predicate Truthy(h: Headers, name: string) {
    name in h && h[name] != ""
  }

  /** ASCII lower-casing, under which HTTP header names compare. */
  function LowerAscii(s: string): (r: string)
    ensures |r| == |s|
  {
    if |s| == 0 then []
    else [if 'A' <= s[0] <= 'Z' then (s[0] as int + 32) as char else s[0]] + LowerAscii(s[1..])
  }

  const AllowOrigin: string := "Access-Control-Allow-Origin"
  const AllowMethods: string := "Access-Control-Allow-Methods"
  const AllowHeaders: string := "Access-Control-Allow-Headers"

  const AnyOrigin: string := "*"
  const AllowedMethods: string := "GET, POST, OPTIONS"
  const AllowedHeaders: string := "Authorization, Content-Type, X-NAS-Username, X-NAS-Password"

  /**
   * The three response headers of the CORS protocol (section 3.2 of the WHATWG
   * Fetch Standard) the proxy grants: any origin, its methods, its request headers.
   */
  const CorsHeaders: Headers := map[AllowOrigin := AnyOrigin, AllowMethods := AllowedMethods, AllowHeaders := AllowedHeaders]

  /** A header name of the CORS protocol (`Access-Control-...`), in any letter case. */
  predicate IsCorsName(name: string) {
    var lower := LowerAscii(name);
    |lower| >= 15 && lower[..15] == "access-control-"
  }

  /** The body of a response; `Piped` is the backend's body streamed through unchanged. */
  datatype Body = Empty | Text(text: string) | Json(files: seq<FileEntry>) | Piped

  /** What `res.writeHead(status, headers)` followed by `res.end(body)` sends. */
  datatype Response = Response(status: nat, headers: Headers, body: Body)
}

=== FILE: listing.dfy ===
/**
 * `parseWebDAVResponse`: the files a 207 Multi-Status body (RFC 4918,
 * section 13) of a `PROPFIND` with `Depth: 1` lists, as the proxy scans it
 * with regular expressions rather than an XML parser.
 */
module Listing {
  import opened Wrappers
  import opened Text
  import opened Config
  import opened Files
  import opened Ordering

  const ResponseOpen: string := "<d:response>"
  const ResponseClose: string := "</d:response>"
  const HrefOpen: string := "<d:href>"
  const HrefClose: string := "</d:href>"
  const ModifiedOpen: string := "<d:getlastmodified>"
  const ModifiedClose: string := "</d:getlastmodified>"
  const JsonSuffix: string := ".json"

  /** `new Date(text).toISOString()` threw: the text is not a date JavaScript can represent. */
  datatype ParseError = InvalidDate(text: string)

  /**
   * The (opening, closing) positions of the `<d:response>` elements that
   * repeated `exec` calls find, starting at index `from`: each is the lazy
   * match from where the previous one ended, and the search after the last
   * one finds nothing.
   */
  function Matches(xml: string, from: nat): (r: seq<(nat, nat)>)
    ensures Chains((p: nat) => LazyMatch(xml, ResponseOpen, ResponseClose, true, p), |ResponseClose|, from, r)
    decreases |xml| - from
  {
    match LazyMatch(xml, ResponseOpen, ResponseClose, true, from)
    case None => []
    case Some((k, j)) =>
      var rest := Matches(xml, j + |ResponseClose|);
      assert ([(k, j)] + rest)[1..] == rest;
      [(k, j)] + rest
  }

  /**
   * `r` is what the searches `g` give from `from` on, when each search resumes
   * `skip` positions after where the previous match's closing delimiter starts
   * (`lastIndex`, for a closing delimiter of length `skip`) and the search
   * after the last match finds nothing.
   */
  predicate Chains(g: nat -> Option<(nat, nat)>, skip: nat, from: nat, r: seq<(nat, nat)>)
    decreases |r|
  {
    if |r| == 0 then g(from).None?
    else g(from) == Some(r[0]) && Chains(g, skip, r[0].1 + skip, r[1..])
  }

  /** A search determines its chain: no two different sequences satisfy the loop's description. */
  lemma {:induction false} ChainsUnique(g: nat -> Option<(nat, nat)>, skip: nat, from: nat, r1: seq<(nat, nat)>, r2: seq<(nat, nat)>)
    requires Chains(g, skip, from, r1) && Chains(g, skip, from, r2)
    ensures r1 == r2
    decreases |r1|
  {
    if |r1| > 0 && |r2| > 0 {
      ChainsUnique(g, skip, r1[0].1 + skip, r1[1..], r2[1..]);
      assert r1 == [r1[0]] + r1[1..];
      assert r2 == [r2[0]] + r2[1..];
    }
  }

  /** Every element of a chain is what the search gives from some position. */
  lemma {:induction false} ChainsElement(g: nat -> Option<(nat, nat)>, skip: nat, from: nat, r: seq<(nat, nat)>, i: nat)
    returns (p: nat)
    requires Chains(g, skip, from, r) && i < |r|
    ensures g(p) == Some(r[i])
    ensures i == 0 ==> p == from
    decreases i
  {
    if i == 0 {
      p := from;
    } else {
      p := ChainsElement(g, skip, r[0].1 + skip, r[1..], i - 1);
      assert r[1..][i - 1] == r[i];
    }
  }

  /** A `<d:response>` match delimits a body without `</d:response>` in it. */
  lemma MatchBody(xml: string, p: nat, kj: (nat, nat))
    requires LazyMatch(xml, ResponseOpen, ResponseClose, true, p) == Some(kj)
    ensures p <= kj.0 && Delimits(xml, ResponseOpen, ResponseClose, true, kj.0, kj.1)
    ensures !Contains(xml[kj.0 + |ResponseOpen|..kj.1], ResponseClose)
  {
    CloseFreeBody(xml, ResponseOpen, ResponseClose, kj.0, kj.1);
  }

  /** Every match of the loop delimits a body without `</d:response>` in it. */
  lemma MatchBodies(xml: string, from: nat)
    ensures var m := Matches(xml, from);
      forall i :: 0 <= i < |m| ==>
        && Delimits(xml, ResponseOpen, ResponseClose, true, m[i].0, m[i].1)
        && !Contains(Body(xml, m[i]), ResponseClose)
  {
    var m := Matches(xml, from);
    var g := (p: nat) => LazyMatch(xml, ResponseOpen, ResponseClose, true, p);
    assert Chains(g, |ResponseClose|, from, m);
    forall i | 0 <= i < |m|
      ensures Delimits(xml, ResponseOpen, ResponseClose, true, m[i].0, m[i].1)
      ensures !Contains(Body(xml, m[i]), ResponseClose)
    {
      var p := ChainsElement(g, |ResponseClose|, from, m, i);
      MatchBody(xml, p, m[i]);
    }
  }

  /** The first search of the loop decides whether there is any block. */
  lemma FirstMatch(xml: string, from: nat)
    ensures var m := Matches(xml, from);
      && (m == [] <==> forall k, j :: from <= k ==> !Delimits(xml, ResponseOpen, ResponseClose, true, k, j))
      && (m != [] ==>
            && from <= m[0].0
            && Delimits(xml, ResponseOpen, ResponseClose, true, m[0].0, m[0].1)
            && (forall k', j' :: from <= k' < m[0].0 ==> !Delimits(xml, ResponseOpen, ResponseClose, true, k', j')))
  {
    var m := Matches(xml, from);
    var g := (p: nat) => LazyMatch(xml, ResponseOpen, ResponseClose, true, p);
    assert Chains(g, |ResponseClose|, from, m);
    assert m != [] ==> g(from) == Some(m[0]);
    assert m == [] ==> g(from).None?;
  }

  /** The body of the element at the match `(k, j)`. */
  function Body(xml: string, kj: (nat, nat)): string
    requires Delimits(xml, ResponseOpen, ResponseClose, true, kj.0, kj.1)
  {
    xml[kj.0 + |ResponseOpen|..kj.1]
  }

  /** The bodies at the matches `m`, in order. */
  function BodiesOf(xml: string, m: seq<(nat, nat)>): (r: seq<string>)
    requires forall i :: 0 <= i < |m| ==> Delimits(xml, ResponseOpen, ResponseClose, true, m[i].0, m[i].1)
    ensures |r| == |m| && forall i :: 0 <= i < |m| ==> r[i] == Body(xml, m[i])
  {
    seq(|m|, i requires 0 <= i < |m| => Body(xml, m[i]))
  }

  /**
   * The bodies of the `<d:response>` elements, in document order, as the
   * global `/<d:response>([\s\S]*?)<\/d:response>/g` yields them when `exec`
   * is called repeatedly from index `from`.
   */
  function Blocks(xml: string, from: nat): (r: seq<string>)
    ensures var m := Matches(xml, from);
      && |r| == |m|
      && forall i :: 0 <= i < |m| ==>
           Delimits(xml, ResponseOpen, ResponseClose, true, m[i].0, m[i].1) && r[i] == Body(xml, m[i])
    ensures r == [] <==> forall k, j :: from <= k ==> !Delimits(xml, ResponseOpen, ResponseClose, true, k, j)
    ensures r != [] ==> exists k, j ::
      && from <= k
      && Delimits(xml, ResponseOpen, ResponseClose, true, k, j)
      && r[0] == xml[k + |ResponseOpen|..j]
      && (forall k', j' :: from <= k' < k ==> !Delimits(xml, ResponseOpen, ResponseClose, true, k', j'))
    ensures forall i :: 0 <= i < |r| ==> !Contains(r[i], ResponseClose)
  {
    var m := Matches(xml, from);
    MatchBodies(xml, from);
    FirstMatch(xml, from);
    BodiesOf(xml, m)
  }

  /** The shape every listed entry has: a `.json` href, its last segment as name, the NAS URL. */
  predicate WellShaped(e: FileEntry) {
    && EndsWith(e.path, JsonSuffix)
    && EndsWith(e.path, e.name)
    && '/' !in e.name
    && (|e.name| == |e.path| || e.path[|e.path| - |e.name| - 1] == '/')
    && EndsWith(e.name, JsonSuffix)
    && e.url == NasOrigin + e.path
  }

  /**
   * `new Date(modified).toISOString()` for the block's `<d:getlastmodified>`
   * text, `None` when the block has none, an exception when it is no date.
   */
  function ModifiedTime(block: string, parseDate: string -> Option<int>): (r: Result<Option<int>, ParseError>)
    ensures r.Failure? <==>
      TagContent(block, ModifiedOpen, ModifiedClose).Some? && parseDate(TagContent(block, ModifiedOpen, ModifiedClose).value).None?
    ensures r.Success? ==>
      && (r.value.None? <==> TagContent(block, ModifiedOpen, ModifiedClose).None?)
      && (r.value.Some? ==> r.value == parseDate(TagContent(block, ModifiedOpen, ModifiedClose).value))
  {
    match TagContent(block, ModifiedOpen, ModifiedClose)
    case None => Success(None)
    case Some(text) =>
      match parseDate(text)
      case None => Failure(InvalidDate(text))
      case Some(t) => Success(Some(t))
  }

  /**
   * One `<d:response>` body: skipped (`None`) without an href or when the href
   * is not a `.json` file, an entry otherwise, and an exception when its
   * modification time does not parse. `parseDate` stands for `new Date(text)`
   * in milliseconds, `None` for an Invalid Date.
   */
  function EntryOf(block: string, parseDate: string -> Option<int>): (r: Result<Option<FileEntry>, ParseError>)
    ensures r == Success(None) <==>
      TagContent(block, HrefOpen, HrefClose).None? || !EndsWith(TagContent(block, HrefOpen, HrefClose).value, JsonSuffix)
    ensures r.Failure? <==>
      && TagContent(block, HrefOpen, HrefClose).Some?
      && EndsWith(TagContent(block, HrefOpen, HrefClose).value, JsonSuffix)
      && TagContent(block, ModifiedOpen, ModifiedClose).Some?
      && parseDate(TagContent(block, ModifiedOpen, ModifiedClose).value).None?
    ensures r.Success? && r.value.Some? ==>
      var e := r.value.value;
      && WellShaped(e)
      && TagContent(block, HrefOpen, HrefClose) == Some(e.path)
      && (e.lastModified.None? <==> TagContent(block, ModifiedOpen, ModifiedClose).None?)
      && (e.lastModified.Some? ==> e.lastModified == parseDate(TagContent(block, ModifiedOpen, ModifiedClose).value))
  {
    match TagContent(block, HrefOpen, HrefClose)
    case None => Success(None)
    case Some(href) =>
      if !EndsWith(href, JsonSuffix) then Success(None)
      else
        var modified :- ModifiedTime(block, parseDate);
        LastSegmentKeepsSuffix(href, JsonSuffix);
        Success(Some(FileEntry(LastSegment(href), href, modified, NasOrigin + href)))
  }

  /** The entries of the blocks in document order; the first exception aborts the scan. */
  function Collect(blocks: seq<string>, parseDate: string -> Option<int>): (r: Result<seq<FileEntry>, ParseError>)
    ensures r.Success? <==> forall i :: 0 <= i < |blocks| ==> EntryOf(blocks[i], parseDate).Success?
    ensures r.Success? ==> |r.value| <= |blocks|
    ensures r.Success? ==> forall e :: e in r.value <==>
      exists i :: 0 <= i < |blocks| && EntryOf(blocks[i], parseDate) == Success(Some(e))
  {
    if |blocks| == 0 then Success([])
    else
      var head :- EntryOf(blocks[0], parseDate);
      var tail :- Collect(blocks[1..], parseDate);
      var r := match head case None => tail case Some(e) => [e] + tail;
      ConsListed(b => EntryOf(b, parseDate), blocks, head, tail);
      Success(r)
  }

  /**
   * The items `f` yields for `blocks` are those it yields for the first block
   * followed by those it yields for the rest.
   */
  lemma ConsListed<B, T, X>(f: B -> Result<Option<T>, X>, blocks: seq<B>, head: Option<T>, tail: seq<T>)
    requires |blocks| > 0 && f(blocks[0]) == Success(head)
    requires forall e :: e in tail <==> exists i :: 0 <= i < |blocks[1..]| && f(blocks[1..][i]) == Success(Some(e))
    ensures var r := match head case None => tail case Some(e) => [e] + tail;
      forall e :: e in r <==> exists i :: 0 <= i < |blocks| && f(blocks[i]) == Success(Some(e))
  {
    var r := match head case None => tail case Some(e) => [e] + tail;
    forall e
      ensures e in r <==> exists i :: 0 <= i < |blocks| && f(blocks[i]) == Success(Some(e))
    {
      if e in tail {
        var i :| 0 <= i < |blocks[1..]| && f(blocks[1..][i]) == Success(Some(e));
        assert f(blocks[i + 1]) == Success(Some(e));
      }
      if exists i :: 0 <= i < |blocks| && f(blocks[i]) == Success(Some(e)) {
        var i :| 0 <= i < |blocks| && f(blocks[i]) == Success(Some(e));
        if i > 0 {
          assert f(blocks[1..][i - 1]) == Success(Some(e));
        }
      }
    }
  }

  /** `EntryOf` for a fixed date parser, as a function of the block alone. */
  function EntryFn(parseDate: string -> Option<int>): string -> Result<Option<FileEntry>, ParseError> {
    block => EntryOf(block, parseDate)
  }

  /** The block contributes an item under `f`. */
  predicate Yields<B, T, X>(f: B -> Result<Option<T>, X>, block: B) {
    f(block).Success? && f(block).value.Some?
  }

  /** The positions at or after `from` of the blocks that contribute an item, each once, in increasing order. */
  function Producers<B, T, X>(f: B -> Result<Option<T>, X>, blocks: seq<B>, from: nat): (idx: seq<nat>)
    requires from <= |blocks|
    ensures forall m :: 0 <= m < |idx| ==> from <= idx[m] < |blocks| && Yields(f, blocks[idx[m]])
    ensures forall m, n :: 0 <= m < n < |idx| ==> idx[m] < idx[n]
    ensures forall i :: from <= i < |blocks| && Yields(f, blocks[i]) ==> i in idx
    decreases |blocks| - from
  {
    if from == |blocks| then []
    else
      var rest := Producers(f, blocks, from + 1);
      if Yields(f, blocks[from]) then [from] + rest else rest
  }

  /** The items of the blocks at the positions `idx`, in that order. */
  function Items<B, T, X>(f: B -> Result<Option<T>, X>, blocks: seq<B>, idx: seq<nat>): (r: seq<T>)
    requires forall m :: 0 <= m < |idx| ==> idx[m] < |blocks| && Yields(f, blocks[idx[m]])
    ensures |r| == |idx|
    ensures forall m :: 0 <= m < |idx| ==> f(blocks[idx[m]]) == Success(Some(r[m]))
  {
    seq(|idx|, m requires 0 <= m < |idx| && idx[m] < |blocks| && Yields(f, blocks[idx[m]]) =>
      f(blocks[idx[m]]).value.value)
  }

  /** For each contributing block, in block order, its one item. */
  function Produced<B, T, X>(f: B -> Result<Option<T>, X>, blocks: seq<B>): seq<T> {
    Items(f, blocks, Producers(f, blocks, 0))
  }

  lemma ItemsCons<B, T, X>(f: B -> Result<Option<T>, X>, blocks: seq<B>, i: nat, idx: seq<nat>)
    requires i < |blocks| && Yields(f, blocks[i])
    requires forall m :: 0 <= m < |idx| ==> idx[m] < |blocks| && Yields(f, blocks[idx[m]])
    ensures Items(f, blocks, [i] + idx) == [f(blocks[i]).value.value] + Items(f, blocks, idx)
  {
    var l, r := Items(f, blocks, [i] + idx), [f(blocks[i]).value.value] + Items(f, blocks, idx);
    forall m | 0 <= m < |l|
      ensures l[m] == r[m]
    {
      if m > 0 {
        assert ([i] + idx)[m] == idx[m - 1];
      }
    }
  }

  /** The scan of the blocks from `from` on lists the items of the contributing ones, in order. */
  lemma {:induction false} CollectFrom(blocks: seq<string>, parseDate: string -> Option<int>, from: nat)
    requires from <= |blocks| && Collect(blocks[from..], parseDate).Success?
    ensures Collect(blocks[from..], parseDate).value == Items(EntryFn(parseDate), blocks, Producers(EntryFn(parseDate), blocks, from))
    decreases |blocks| - from
  {
    var f := EntryFn(parseDate);
    if from < |blocks| {
      assert blocks[from..][1..] == blocks[from + 1..];
      assert blocks[from..][0] == blocks[from];
      assert f(blocks[from]) == EntryOf(blocks[from], parseDate);
      CollectFrom(blocks, parseDate, from + 1);
      var rest := Producers(f, blocks, from + 1);
      if Yields(f, blocks[from]) {
        ItemsCons(f, blocks, from, rest);
      }
    }
  }

  /**
   * The scan of proxy.js:110-135 pushes exactly one entry per contributing
   * block, in block order.
   */
  lemma CollectInBlockOrder(blocks: seq<string>, parseDate: string -> Option<int>)
    requires Collect(blocks, parseDate).Success?
    ensures Collect(blocks, parseDate).value == Produced(EntryFn(parseDate), blocks)
  {
    assert blocks[0..] == blocks;
    CollectFrom(blocks, parseDate, 0);
  }

  /** `parseWebDAVResponse(xmlData)`: the `.json` files of the listing, newest first. */
  function ParseWebDAVResponse(xml: string, parseDate: string -> Option<int>): (r: Result<seq<FileEntry>, ParseError>)
    ensures r.Success? <==> Collect(Blocks(xml, 0), parseDate).Success?
    ensures r.Success? ==> multiset(r.value) == multiset(Collect(Blocks(xml, 0), parseDate).value)
    ensures r.Success? ==> NewestFirst(r.value)
    ensures r.Success? ==> Undated(r.value) == Undated(Collect(Blocks(xml, 0), parseDate).value)
  {
    var files :- Collect(Blocks(xml, 0), parseDate);
    Success(SortNewestFirst(files))
  }

  /**
   * What a successful listing holds: exactly one entry per `.json` block
   * (as many times as such blocks occur), each well shaped, the undated
   * ones in block order, and never more entries than blocks.
   */
  lemma {:induction false} ListedEntries(xml: string, parseDate: string -> Option<int>)
    requires ParseWebDAVResponse(xml, parseDate).Success?
    ensures var files, blocks := ParseWebDAVResponse(xml, parseDate).value, Blocks(xml, 0);
      && multiset(files) == multiset(Produced(EntryFn(parseDate), blocks))
      && |files| == |Producers(EntryFn(parseDate), blocks, 0)|
      && Undated(files) == Undated(Produced(EntryFn(parseDate), blocks))
      && |files| <= |blocks|
      && (forall e :: e in files <==> exists i :: 0 <= i < |blocks| && EntryOf(blocks[i], parseDate) == Success(Some(e)))
      && (forall e :: e in files ==> WellShaped(e))
  {
    var files, blocks := ParseWebDAVResponse(xml, parseDate).value, Blocks(xml, 0);
    var collected := Collect(blocks, parseDate).value;
    CollectInBlockOrder(blocks, parseDate);
    assert |files| == |multiset(files)| == |multiset(collected)| == |collected|;
    forall e
      ensures e in files <==> e in collected
    {
      assert e in files <==> e in multiset(files);
      assert e in collected <==> e in multiset(collected);
    }
    forall e | e in files
      ensures WellShaped(e)
    {
      var i :| 0 <= i < |blocks| && EntryOf(blocks[i], parseDate) == Success(Some(e));
    }
  }

  /** A body without one complete `<d:response>` element lists nothing. */
  lemma EmptyWithoutBlocks(xml: string, parseDate: string -> Option<int>)
    requires forall k, j :: !Delimits(xml, ResponseOpen, ResponseClose, true, k, j)
    ensures ParseWebDAVResponse(xml, parseDate) == Success([])
  {
    assert Blocks(xml, 0) == [];
  }
}

=== FILE: ordering.dfy ===
/**
 * The order of the listing: newest first, entries without a modification
 * time last. The proxy hands `Array.prototype.sort` a comparator that
 * answers 1 for two undated entries whichever way round they are asked, so
 * the language leaves their relative order to the engine; this model keeps
 * them in document order, which is one of the orders an engine may produce.
 */
module Ordering {
  import opened Wrappers
  import opened Files

  /** The comparator of the sort, on the two entries' modification times. */
  function Compare(a: Option<int>, b: Option<int>): int {
    if a.None? then 1
    else if b.None? then -1
    else b.value - a.value
  }

  /** No entry is placed after one the comparator ranks strictly behind it. */
  predicate NewestFirst(s: seq<FileEntry>) {
    forall i, j :: 0 <= i < j < |s| ==> Compare(s[j].lastModified, s[i].lastModified) >= 0
  }

  /** The entries of `s` that have no modification time, in order. */
  function Undated(s: seq<FileEntry>): (r: seq<FileEntry>)
    ensures forall e :: e in r <==> e in s && e.lastModified.None?
  {
    if |s| == 0 then []
    else if s[0].lastModified.None? then [s[0]] + Undated(s[1..])
    else Undated(s[1..])
  }

  /** Places `x` before the first entry of `s` that does not rank strictly ahead of it. */
  function Insert(x: FileEntry, s: seq<FileEntry>): (r: seq<FileEntry>)
    ensures multiset(r) == multiset(s) + multiset{x}
  {
    if |s| == 0 then [x]
    else if Compare(s[0].lastModified, x.lastModified) < 0 then
      assert s == [s[0]] + s[1..];
      [s[0]] + Insert(x, s[1..])
    else
      [x] + s
  }

  /** "Not ranked strictly ahead of" is transitive. */
  lemma NotAheadTransitive(a: Option<int>, b: Option<int>, c: Option<int>)
    requires Compare(a, b) >= 0 && Compare(b, c) >= 0
    ensures Compare(a, c) >= 0
  {
  }

  lemma {:induction false} InsertKeepsOrder(x: FileEntry, s: seq<FileEntry>)
    requires NewestFirst(s)
    ensures NewestFirst(Insert(x, s))
  {
    if |s| > 0 {
      var r := Insert(x, s);
      if Compare(s[0].lastModified, x.lastModified) < 0 {
        var t := Insert(x, s[1..]);
        InsertKeepsOrder(x, s[1..]);
        InsertedBehindHead(x, s);
        ConsKeepsOrder(s[0], t);
      } else {
        forall j | 0 <= j < |s|
          ensures Compare(s[j].lastModified, x.lastModified) >= 0
        {
          if j > 0 {
            NotAheadTransitive(s[j].lastModified, s[0].lastModified, x.lastModified);
          }
        }
      }
    }
  }

  /** A head that no later entry ranks strictly ahead of extends the order. */
  lemma ConsKeepsOrder(h: FileEntry, t: seq<FileEntry>)
    requires NewestFirst(t)
    requires forall j :: 0 <= j < |t| ==> Compare(t[j].lastModified, h.lastModified) >= 0
    ensures NewestFirst([h] + t)
  {
    var r := [h] + t;
    forall i, j | 0 <= i < j < |r|
      ensures Compare(r[j].lastModified, r[i].lastModified) >= 0
    {
      assert r[j] == t[j - 1];
      if i > 0 {
        assert r[i] == t[i - 1];
      }
    }
  }

  /** When `x` goes past the head of `s`, everything after the head still ranks behind it. */
  lemma InsertedBehindHead(x: FileEntry, s: seq<FileEntry>)
    requires NewestFirst(s) && |s| > 0
    requires Compare(s[0].lastModified, x.lastModified) < 0
    ensures forall j :: 0 <= j < |Insert(x, s[1..])| ==> Compare(Insert(x, s[1..])[j].lastModified, s[0].lastModified) >= 0
  {
    var t := Insert(x, s[1..]);
    forall j | 0 <= j < |t|
      ensures Compare(t[j].lastModified, s[0].lastModified) >= 0
    {
      assert t[j] in multiset(t);
      assert t[j] in multiset(s[1..]) || t[j] == x;
      if t[j] != x {
        var k :| 0 <= k < |s[1..]| && s[1..][k] == t[j];
        assert s[k + 1] == t[j];
      }
    }
  }

  lemma {:induction false} InsertKeepsUndatedOrder(x: FileEntry, s: seq<FileEntry>)
    ensures Undated(Insert(x, s)) == Undated([x] + s)
  {
    assert ([x] + s)[1..] == s;
    if |s| > 0 && Compare(s[0].lastModified, x.lastModified) < 0 {
      InsertKeepsUndatedOrder(x, s[1..]);
      assert ([x] + s[1..])[1..] == s[1..];
      assert ([s[0]] + Insert(x, s[1..]))[1..] == Insert(x, s[1..]);
    }
  }

  /** The order of the listing, by stable insertion. */
  function SortNewestFirst(s: seq<FileEntry>): (r: seq<FileEntry>)
    ensures multiset(r) == multiset(s)
    ensures NewestFirst(r)
    ensures Undated(r) == Undated(s)
  {
    if |s| == 0 then []
    else
      assert s == [s[0]] + s[1..];
      var t := SortNewestFirst(s[1..]);
      InsertKeepsOrder(s[0], t);
      InsertKeepsUndatedOrder(s[0], t);
      assert ([s[0]] + t)[1..] == t;
      Insert(s[0], t)
  }

  /**
   * The order in the terms the listing promises: every dated entry precedes
   * every undated one, and dated entries never get newer further down.
   */
  lemma NewestFirstMeans(s: seq<FileEntry>)
    ensures NewestFirst(s) <==>
      && (forall i, j :: 0 <= i < j < |s| && s[i].lastModified.None? ==> s[j].lastModified.None?)
      && (forall i, j :: 0 <= i < j < |s| && s[j].lastModified.Some? ==> s[i].lastModified.Some? && s[i].lastModified.value >= s[j].lastModified.value)
  {
  }

  /** The only newest-first arrangement of two dated entries and an undated one. */
  lemma ThreeOrdered(r: seq<FileEntry>, newer: FileEntry, older: FileEntry, undated: FileEntry)
    requires newer.lastModified.Some? && older.lastModified.Some?
    requires newer.lastModified.value > older.lastModified.value
    requires undated.lastModified.None?
    requires multiset(r) == multiset{newer, older, undated}
    requires NewestFirst(r)
    ensures r == [newer, older, undated]
  {
    assert |r| == 3 by {
      assert |r| == |multiset(r)|;
    }
    assert newer in multiset(r) && older in multiset(r) && undated in multiset(r);
    var n :| 0 <= n < 3 && r[n] == newer;
    var o :| 0 <= o < 3 && r[o] == older;
    var u :| 0 <= u < 3 && r[u] == undated;
    assert n == 0 && o == 1 && u == 2;
  }

  /**
   * Two dated entries and an undated one come out as [newer, older, undated],
   * whatever order the document lists them in.
   */
  lemma ThreeEntryOrder(s: seq<FileEntry>, newer: FileEntry, older: FileEntry, undated: FileEntry)
    requires newer.lastModified.Some? && older.lastModified.Some?
    requires newer.lastModified.value > older.lastModified.value
    requires undated.lastModified.None?
    requires multiset(s) == multiset{newer, older, undated}
    ensures SortNewestFirst(s) == [newer, older, undated]
  {
    ThreeOrdered(SortNewestFirst(s), newer, older, undated);
  }
}

=== FILE: outbound.dfy ===
/** The options object the proxy hands to `http.request` / `https.request`. */
module Outbound {
  import opened Wrappers
  import opened Http
  import opened Config
  import opened Credentials

  /** The `http` module or the `https` module. */
  datatype Transport = Plain | Tls

  /**
   * The parts of `new URL(target)` the forwarding path reads. `port` is `None`
   * when the URL's port string is empty, that is absent or equal to the
   * scheme's default port.
   */
  datatype UrlParts = UrlParts(protocol: string, hostname: string, port: Option<nat>, pathname: string, search: string)

  /** `verb` is the HTTP method of the request. */
  datatype OutboundRequest = OutboundRequest(
    transport: Transport,
    hostname: string,
    port: nat,
    path: string,
    verb: string,
    headers: Headers,
    timeoutMs: nat)

  const AuthorizationHeader: string := "Authorization"

  /** `if (authHeader) options.headers['Authorization'] = authHeader`. */
  function WithAuthorization(base: Headers, inbound: Headers): (h: Headers)
    requires AuthorizationHeader !in base
    ensures h.Keys == base.Keys + (if ResolveAuthorization(inbound).Some? then {AuthorizationHeader} else {})
    ensures forall name :: name in base ==> h[name] == base[name]
    ensures AuthorizationHeader in h ==> h[AuthorizationHeader] == ResolveAuthorization(inbound).value
  {
    match ResolveAuthorization(inbound)
    case Some(v) => if v != "" then base[AuthorizationHeader := v] else base
    case None => base
  }

  /** The `PROPFIND` of the backup collection, one level deep (section 9.1 of RFC 4918). */
  function ListRequest(inbound: Headers): (r: OutboundRequest)
    ensures r.transport == Plain && r.hostname == NasHost && r.port == NasPort
    ensures r.verb == "PROPFIND" && r.path == ListPath && r.timeoutMs == TimeoutMs
    ensures "Depth" in r.headers && r.headers["Depth"] == "1"
    ensures "Accept" in r.headers && r.headers["Accept"] == "*/*"
    ensures AuthorizationHeader in r.headers <==>
      Truthy(inbound, AuthorizationName) || (Truthy(inbound, UsernameName) && Truthy(inbound, PasswordName))
    ensures r.headers.Keys <= {"Depth", "Accept", AuthorizationHeader}
  {
    OutboundRequest(Plain, NasHost, NasPort, ListPath, "PROPFIND",
      WithAuthorization(map["Depth" := "1", "Accept" := "*/*"], inbound), TimeoutMs)
  }

  /** The `GET` of the caller's URL: `https:` selects TLS, and the port defaults by scheme. */
  function ForwardRequest(target: UrlParts, inbound: Headers): (r: OutboundRequest)
    ensures r.transport == (if target.protocol == "https:" then Tls else Plain)
    ensures r.hostname == target.hostname
    ensures target.port.Some? ==> r.port == target.port.value
    ensures target.port.None? ==> r.port == (if target.protocol == "https:" then 443 else 80)
    ensures r.verb == "GET" && r.path == target.pathname + target.search && r.timeoutMs == TimeoutMs
    ensures "Accept" in r.headers && r.headers["Accept"] == "*/*"
    ensures AuthorizationHeader in r.headers <==>
      Truthy(inbound, AuthorizationName) || (Truthy(inbound, UsernameName) && Truthy(inbound, PasswordName))
    ensures r.headers.Keys <= {"Accept", AuthorizationHeader}
  {
    var https := target.protocol == "https:";
    OutboundRequest(
      if https then Tls else Plain,
      target.hostname,
      match target.port case Some(p) => p case None => if https then 443 else 80,
      target.pathname + target.search,
      "GET",
      WithAuthorization(map["Accept" := "*/*"], inbound),
      TimeoutMs)
  }

  /**
   * Both paths forward the same credential: a truthy `authorization` header
   * verbatim, otherwise the Basic credential of the custom header pair.
   */
  lemma SameAuthorizationOnBothPaths(target: UrlParts, inbound: Headers)
    ensures var l, f := ListRequest(inbound).headers, ForwardRequest(target, inbound).headers;
      && (AuthorizationHeader in l <==> AuthorizationHeader in f)
      && (AuthorizationHeader in l ==> l[AuthorizationHeader] == f[AuthorizationHeader])
      && (Truthy(inbound, AuthorizationName) ==> l[AuthorizationHeader] == inbound[AuthorizationName])
      && (!Truthy(inbound, AuthorizationName) && Truthy(inbound, UsernameName) && Truthy(inbound, PasswordName) ==>
            l[AuthorizationHeader] == BasicValue(inbound[UsernameName], inbound[PasswordName]))
  {
  }
}

=== FILE: responses.dfy ===
/**
 * How the outcome of the outbound request becomes the response, as a state
 * machine over the events the outbound request delivers. `res.writeHead` may
 * be called once: a second call throws `ERR_HTTP_HEADERS_SENT`, and a throw in
 * an event listener that nothing catches ends the process.
 */
module Responses {
  import opened Wrappers
  import opened Http
  import opened Files
  import opened Listing
  import Strings = Text

  /**
   * What the outbound request reports: the backend's status code, reason
   * phrase (Node's `statusMessage`), headers and (buffered) body; a transport
   * error; the 15 s socket idle timeout; or an exception raised synchronously
   * while the handler set the request up.
   */
  datatype Event =
    | Responded(status: nat, statusMessage: string, headers: Headers, body: string)
    | Errored(message: string)
    | TimedOut
    | Threw(message: string)

  /** Why the process stopped: an exception no handler catches. */
  datatype Fault = HeadersAlreadySent | UncaughtParseError(error: ParseError) | UncaughtException(message: string)

  /**
   * The response as far as it has been written, whether the outbound request
   * was destroyed, and the fault that ended the process, if any.
   */
  datatype Exchange = Exchange(written: seq<Response>, upstreamDestroyed: bool, fault: Option<Fault>) {
    /** `res.headersSent`. */
    predicate HeadersSent() {
      |written| > 0
    }
  }

  const Initial: Exchange := Exchange([], false, None)

  /** `res.writeHead(...)` then `res.end(...)`: the first time it sends, a second time it throws. */
  function Write(x: Exchange, r: Response): (y: Exchange)
    requires x.fault.None?
    ensures !x.HeadersSent() ==> y == x.(written := [r])
    ensures x.HeadersSent() ==> y == x.(fault := Some(HeadersAlreadySent))
  {
    if x.HeadersSent() then x.(fault := Some(HeadersAlreadySent))
    else x.(written := x.written + [r])
  }

  const ListJson: Headers := map["Content-Type" := "application/json", AllowOrigin := AnyOrigin]
  const ListText: Headers := map["Content-Type" := "text/plain", AllowOrigin := AnyOrigin]
  /** The forwarding path's own error answers: plain text, and no CORS header. */
  const ForwardErrorText: Headers := map["Content-Type" := "text/plain; charset=utf-8"]
  /** "Proxy request failed: ", followed by the transport error's message. */
  const ForwardFailurePrefix: string := "代理请求失败: "
  /** "Request timed out". */
  const ForwardTimeoutText: string := "请求超时"

  /** How a missing property reads inside a template literal. */
  const Undefined: string := "undefined"

  /** The listing path's plain-text answer to a status other than 207. */
  function ListFailureBody(status: nat, detail: string): string {
    "Failed to list files: " + Strings.Decimal(status) + " " + detail
  }

  /** A 207 whose body `parseWebDAVResponse` throws on, inside the `end` listener. */
  predicate ParseThrows(ev: Event, parseDate: string -> Option<int>) {
    ev.Responded? && ev.status == 207 && ParseWebDAVResponse(ev.body, parseDate).Failure?
  }

  /**
   * `handleListFiles`: one event on the listing path. Its error and timeout
   * listeners write without looking at `res.headersSent`, and its failure text
   * reads `proxyRes.statusText`, a property Node's responses do not have.
   */
  function ListStep(x: Exchange, ev: Event, parseDate: string -> Option<int>): (y: Exchange)
    ensures x.fault.Some? ==> y == x
    ensures x.fault.None? ==> (y.fault.None? <==> !x.HeadersSent() && !ParseThrows(ev, parseDate))
    ensures x.fault.None? && x.HeadersSent() ==>
      y.written == x.written && (y.fault == Some(HeadersAlreadySent) <==> !ParseThrows(ev, parseDate))
    ensures x.fault.None? && !x.HeadersSent() && !ParseThrows(ev, parseDate) ==>
      |y.written| == 1 && AllowOrigin in y.written[0].headers && y.written[0].headers[AllowOrigin] == AnyOrigin
    ensures y.upstreamDestroyed <==> x.upstreamDestroyed || (x.fault.None? && ev.TimedOut?)
  {
    if x.fault.Some? then x
    else
      match ev
      case Responded(status, _, _, body) =>
        if status == 207 then
          match ParseWebDAVResponse(body, parseDate)
          case Success(files) => Write(x, Response(200, ListJson, Json(files)))
          case Failure(e) => x.(fault := Some(UncaughtParseError(e)))
        else
          Write(x, Response(status, ListText, Text(ListFailureBody(status, Undefined))))
      case Errored(message) => Write(x, Response(502, ListText, Text("Proxy error: " + message)))
      case TimedOut => Write(x.(upstreamDestroyed := true), Response(504, ListText, Text("Request timeout")))
      case Threw(message) => Write(x, Response(500, ListText, Text("Server error: " + message)))
  }

  /**
   * The listing path with its error and timeout listeners guarded by
   * `res.headersSent`, as the forwarding path guards them.
   */
  function GuardedListStep(x: Exchange, ev: Event, parseDate: string -> Option<int>): (y: Exchange)
    ensures !x.HeadersSent() || !(ev.Errored? || ev.TimedOut?) ==> y == ListStep(x, ev, parseDate)
    ensures x.HeadersSent() && (ev.Errored? || ev.TimedOut?) ==>
      y.written == x.written && y.fault == x.fault && (y.upstreamDestroyed <==> x.upstreamDestroyed || (x.fault.None? && ev.TimedOut?))
  {
    if x.fault.Some? then x
    else
      match ev
      case Errored(_) => if x.HeadersSent() then x else ListStep(x, ev, parseDate)
      case TimedOut => if x.HeadersSent() then x.(upstreamDestroyed := true) else ListStep(x, ev, parseDate)
      case _ => ListStep(x, ev, parseDate)
  }

  const AllowOriginLower: string := "access-control-allow-origin"
  const AllowMethodsLower: string := "access-control-allow-methods"
  const AllowHeadersLower: string := "access-control-allow-headers"
  const CorsNames: set<string> := {AllowOriginLower, AllowMethodsLower, AllowHeadersLower}

  /**
   * The backend's headers with the three CORS headers set under their
   * lower-case names, the form in which Node delivers `proxyRes.headers`.
   */
  function WithCors(h: Headers): (r: Headers)
    ensures r.Keys == h.Keys + CorsNames
    ensures r[AllowOriginLower] == AnyOrigin
    ensures r[AllowMethodsLower] == AllowedMethods
    ensures r[AllowHeadersLower] == AllowedHeaders
    ensures forall name :: name in h && name !in CorsNames ==> r[name] == h[name]
  {
    h[AllowOriginLower := AnyOrigin][AllowMethodsLower := AllowedMethods][AllowHeadersLower := AllowedHeaders]
  }

  /**
   * The forwarding path: the backend's status and headers pass through and the
   * body is piped; the error and timeout listeners write only while no head
   * has been sent, and swallow what `writeHead` throws. Nothing catches an
   * exception of the synchronous set-up.
   */
  function ForwardStep(x: Exchange, ev: Event): (y: Exchange)
    ensures x.fault.Some? ==> y == x
    ensures x.fault.None? ==>
      (y.fault == Some(HeadersAlreadySent) <==> ev.Responded? && x.HeadersSent())
    ensures ev.Errored? || ev.TimedOut? ==> y.fault == x.fault && (x.HeadersSent() ==> y.written == x.written)
    ensures x.fault.None? && ev.Threw? ==> y.written == x.written && y.fault == Some(UncaughtException(ev.message))
    ensures x.fault.None? && !x.HeadersSent() && !ev.Threw? ==> |y.written| == 1
    ensures y.upstreamDestroyed <==> x.upstreamDestroyed || (x.fault.None? && ev.TimedOut?)
  {
    if x.fault.Some? then x
    else
      match ev
      case Responded(status, _, headers, _) => Write(x, Response(status, WithCors(headers), Piped))
      case Errored(message) =>
        if x.HeadersSent() then x
        else Write(x, Response(502, ForwardErrorText, Text(ForwardFailurePrefix + message)))
      case TimedOut =>
        var y := x.(upstreamDestroyed := true);
        if y.HeadersSent() then y
        else Write(y, Response(504, ForwardErrorText, Text(ForwardTimeoutText)))
      case Threw(message) => x.(fault := Some(UncaughtException(message)))
  }

  /**
   * The listing path as evidently intended: the guarded listeners, and the
   * failure text naming the backend's reason phrase (`statusMessage`).
   */
  function IntendedListStep(x: Exchange, ev: Event, parseDate: string -> Option<int>): (y: Exchange)
    ensures x.fault.None? && !x.HeadersSent() && ev.Responded? && ev.status != 207 ==>
      && y.written == [Response(ev.status, ListText, Text(ListFailureBody(ev.status, ev.statusMessage)))]
      && y.fault.None?
    ensures !(ev.Responded? && ev.status != 207) ==> y == GuardedListStep(x, ev, parseDate)
  {
    match ev
    case Responded(status, message, _, _) =>
      if x.fault.None? && status != 207 then Write(x, Response(status, ListText, Text(ListFailureBody(status, message))))
      else GuardedListStep(x, ev, parseDate)
    case _ => GuardedListStep(x, ev, parseDate)
  }

  datatype Path = ListPath | GuardedListPath | IntendedListPath | ForwardPath

  function Step(path: Path, x: Exchange, ev: Event, parseDate: string -> Option<int>): Exchange {
    match path
    case ListPath => ListStep(x, ev, parseDate)
    case GuardedListPath => GuardedListStep(x, ev, parseDate)
    case IntendedListPath => IntendedListStep(x, ev, parseDate)
    case ForwardPath => ForwardStep(x, ev)
  }

  /** The exchange after the events `evs`, in order. */
  function Run(path: Path, x: Exchange, evs: seq<Event>, parseDate: string -> Option<int>): Exchange
    decreases |evs|
  {
    if |evs| == 0 then x else Run(path, Step(path, x, evs[0], parseDate), evs[1..], parseDate)
  }

  /**
   * The event orders Node produces: the response, or a synchronous exception,
   * can only come first; errors and timeouts may follow (a timeout's
   * `destroy()` itself raises a "socket hang up" error).
   */
  predicate WellFormed(evs: seq<Event>) {
    forall i :: 0 < i < |evs| ==> evs[i].Errored? || evs[i].TimedOut?
  }

  /**
   * The listing path's answer to the first event: 207 becomes 200 with the
   * parsed files as JSON (or the process dies on an unparsable date), any
   * other status passes through as plain text, a transport error is 502, a
   * timeout destroys the request and is 504, a synchronous exception is 500.
   */
  lemma ListOutcome(ev: Event, parseDate: string -> Option<int>)
    ensures var y := ListStep(Initial, ev, parseDate);
      && (ev.Responded? && ev.status == 207 && ParseWebDAVResponse(ev.body, parseDate).Success? ==>
            y.written == [Response(200, ListJson, Json(ParseWebDAVResponse(ev.body, parseDate).value))])
      && (ev.Responded? && ev.status == 207 && ParseWebDAVResponse(ev.body, parseDate).Failure? ==>
            y.written == [] && y.fault == Some(UncaughtParseError(ParseWebDAVResponse(ev.body, parseDate).error)))
      && (ev.Responded? && ev.status != 207 ==>
            |y.written| == 1 && y.written[0].status == ev.status && y.written[0].headers == ListText)
      && (ev.Errored? ==> y.written == [Response(502, ListText, Text("Proxy error: " + ev.message))])
      && (ev.TimedOut? ==> y.written == [Response(504, ListText, Text("Request timeout"))] && y.upstreamDestroyed)
      && (ev.Threw? ==> y.written == [Response(500, ListText, Text("Server error: " + ev.message))])
  {
  }

  /** Every response of the listing path grants any origin. */
  lemma {:induction false} ListAllowsAnyOrigin(path: Path, x: Exchange, evs: seq<Event>, parseDate: string -> Option<int>)
    requires path != ForwardPath
    requires forall r :: r in x.written ==> AllowOrigin in r.headers && r.headers[AllowOrigin] == AnyOrigin
    ensures forall r :: r in Run(path, x, evs, parseDate).written ==>
      AllowOrigin in r.headers && r.headers[AllowOrigin] == AnyOrigin
    decreases |evs|
  {
    if |evs| > 0 {
      StepAllowsAnyOrigin(path, x, evs[0], parseDate);
      ListAllowsAnyOrigin(path, Step(path, x, evs[0], parseDate), evs[1..], parseDate);
    }
  }

  /** One step of a listing path only ever writes a response that grants any origin. */
  lemma StepAllowsAnyOrigin(path: Path, x: Exchange, ev: Event, parseDate: string -> Option<int>)
    requires path != ForwardPath
    requires forall r :: r in x.written ==> AllowOrigin in r.headers && r.headers[AllowOrigin] == AnyOrigin
    ensures forall r :: r in Step(path, x, ev, parseDate).written ==>
      AllowOrigin in r.headers && r.headers[AllowOrigin] == AnyOrigin
  {
    var y := Step(path, x, ev, parseDate);
    if y.written != x.written {
      assert x.fault.None? && !x.HeadersSent();
      assert |y.written| == 1;
    }
  }

  /** On every path at most one response is written, whatever the events. */
  lemma {:induction false} AtMostOneResponse(path: Path, x: Exchange, evs: seq<Event>, parseDate: string -> Option<int>)
    requires |x.written| <= 1
    ensures |Run(path, x, evs, parseDate).written| <= 1
    ensures x.HeadersSent() ==> Run(path, x, evs, parseDate).written == x.written
    decreases |evs|
  {
    if |evs| > 0 {
      AtMostOneResponse(path, Step(path, x, evs[0], parseDate), evs[1..], parseDate);
    }
  }

  /** Errors and timeouts after the first event never fault on the forwarding path. */
  lemma {:induction false} ForwardLateEventsHarmless(x: Exchange, evs: seq<Event>, parseDate: string -> Option<int>)
    requires forall i :: 0 <= i < |evs| ==> evs[i].Errored? || evs[i].TimedOut?
    ensures Run(ForwardPath, x, evs, parseDate).fault == x.fault
    ensures x.HeadersSent() ==> Run(ForwardPath, x, evs, parseDate).written == x.written
    ensures x.fault.None? && TimedOut in evs ==> Run(ForwardPath, x, evs, parseDate).upstreamDestroyed
    decreases |evs|
  {
    if |evs| > 0 {
      var y := Step(ForwardPath, x, evs[0], parseDate);
      ForwardLateEventsHarmless(y, evs[1..], parseDate);
      if x.fault.None? && TimedOut in evs && evs[0] != TimedOut {
        assert TimedOut in evs[1..];
      }
      if x.fault.None? && evs[0] == TimedOut {
        assert y.upstreamDestroyed;
        UpstreamStaysDestroyed(ForwardPath, y, evs[1..], parseDate);
      }
    }
  }

  lemma {:induction false} UpstreamStaysDestroyed(path: Path, x: Exchange, evs: seq<Event>, parseDate: string -> Option<int>)
    requires x.upstreamDestroyed
    ensures Run(path, x, evs, parseDate).upstreamDestroyed
    decreases |evs|
  {
    if |evs| > 0 {
      UpstreamStaysDestroyed(path, Step(path, x, evs[0], parseDate), evs[1..], parseDate);
    }
  }

  /**
   * The forwarding path writes one head and never throws for a second one:
   * a backend response passes its status through with the CORS headers added,
   * and later errors or timeouts are swallowed; a first error is 502, a first
   * timeout destroys the request and is 504.
   */
  lemma ForwardWritesOnce(evs: seq<Event>, parseDate: string -> Option<int>)
    requires WellFormed(evs) && |evs| > 0
    ensures var y := Run(ForwardPath, Initial, evs, parseDate);
      && y.fault != Some(HeadersAlreadySent)
      && (evs[0].Responded? ==> y.written == [Response(evs[0].status, WithCors(evs[0].headers), Piped)])
      && (evs[0].Errored? ==> y.written == [Response(502, ForwardErrorText, Text(ForwardFailurePrefix + evs[0].message))])
      && (evs[0].TimedOut? ==> y.written == [Response(504, ForwardErrorText, Text(ForwardTimeoutText))])
      && (!evs[0].Threw? && TimedOut in evs ==> y.upstreamDestroyed)
  {
    ForwardFirstAnswer(Initial, evs[0]);
    ForwardSettles(evs, parseDate);
    if !evs[0].Threw? && TimedOut in evs {
      ForwardTimeoutDestroys(evs, parseDate);
    }
  }

  /** A timeout anywhere on the forwarding path destroys the outbound request. */
  lemma ForwardTimeoutDestroys(evs: seq<Event>, parseDate: string -> Option<int>)
    requires WellFormed(evs) && |evs| > 0 && !evs[0].Threw? && TimedOut in evs
    ensures Run(ForwardPath, Initial, evs, parseDate).upstreamDestroyed
  {
    var x := ForwardStep(Initial, evs[0]);
    ForwardFirstAnswer(Initial, evs[0]);
    RunForward(Initial, evs, parseDate);
    if evs[0] == TimedOut {
      UpstreamStaysDestroyed(ForwardPath, x, evs[1..], parseDate);
    } else {
      assert TimedOut in evs[1..];
      LateEvents(evs);
      ForwardLateEventsHarmless(x, evs[1..], parseDate);
    }
  }


  /** On the forwarding path, the events after the first change neither its answer nor its fault. */
  lemma ForwardSettles(evs: seq<Event>, parseDate: string -> Option<int>)
    requires WellFormed(evs) && |evs| > 0
    ensures var x, y := ForwardStep(Initial, evs[0]), Run(ForwardPath, Initial, evs, parseDate);
      && y.fault == x.fault
      && (x.HeadersSent() ==> y.written == x.written)
  {
    RunForward(Initial, evs, parseDate);
    LateEvents(evs);
    ForwardLateEventsHarmless(ForwardStep(Initial, evs[0]), evs[1..], parseDate);
  }

  /** The first answer on the forwarding path, before any head was sent. */
  lemma ForwardFirstAnswer(x: Exchange, ev: Event)
    requires x.fault.None? && !x.HeadersSent()
    ensures ev.Responded? ==> ForwardStep(x, ev).written == [Response(ev.status, WithCors(ev.headers), Piped)]
    ensures ev.Errored? ==> ForwardStep(x, ev).written == [Response(502, ForwardErrorText, Text(ForwardFailurePrefix + ev.message))]
    ensures ev.TimedOut? ==> ForwardStep(x, ev).written == [Response(504, ForwardErrorText, Text(ForwardTimeoutText))]
    ensures !ev.Threw? ==> ForwardStep(x, ev).fault.None?
  {
  }

  /** Running the forwarding path is one forwarding step, then the rest. */
  lemma RunForward(x: Exchange, evs: seq<Event>, parseDate: string -> Option<int>)
    requires |evs| > 0
    ensures Run(ForwardPath, x, evs, parseDate) == Run(ForwardPath, ForwardStep(x, evs[0]), evs[1..], parseDate)
  {
  }

  /** The forwarding path's own 502 and 504 answers carry no `Access-Control-*` header. */
  lemma ForwardErrorsCarryNoCors()
    ensures forall name :: name in ForwardErrorText ==> !IsCorsName(name)
  {
    assert ForwardErrorText.Keys == {"Content-Type"};
    assert |LowerAscii("Content-Type")| < 15;
  }

  /**
   * The listing path as written: a timeout writes 504 and destroys the
   * request, the destroyed request reports "socket hang up", and the unguarded
   * error listener's `writeHead(502)` throws.
   */
  lemma ListTimeoutThenErrorFaults(parseDate: string -> Option<int>)
    ensures WellFormed([TimedOut, Errored("socket hang up")])
    ensures Run(ListPath, Initial, [TimedOut, Errored("socket hang up")], parseDate).fault == Some(HeadersAlreadySent)
  {
  }

  /** Errors and timeouts after a head is sent change nothing on the guarded listing path. */
  lemma {:induction false} GuardedLateEventsHarmless(x: Exchange, evs: seq<Event>, parseDate: string -> Option<int>)
    requires forall i :: 0 <= i < |evs| ==> evs[i].Errored? || evs[i].TimedOut?
    requires x.fault != Some(HeadersAlreadySent)
    ensures Run(GuardedListPath, x, evs, parseDate).fault != Some(HeadersAlreadySent)
    decreases |evs|
  {
    if |evs| > 0 {
      GuardedLateEventsHarmless(Step(GuardedListPath, x, evs[0], parseDate), evs[1..], parseDate);
    }
  }

  /** The guard changes nothing about the answer to the first event. */
  lemma GuardedAgreesOnFirstEvent(ev: Event, parseDate: string -> Option<int>)
    ensures GuardedListStep(Initial, ev, parseDate) == ListStep(Initial, ev, parseDate)
  {
    match ev
    case Errored(_) =>
    case TimedOut =>
    case _ =>
  }

  /** Nothing has been written before the first event, so it cannot be a second head. */
  lemma FirstEventNoDoubleWrite(path: Path, ev: Event, parseDate: string -> Option<int>)
    ensures Step(path, Initial, ev, parseDate).fault != Some(HeadersAlreadySent)
  {
    match ev
    case Responded(status, _, _, body) =>
      if path != ForwardPath && status == 207 {
        match ParseWebDAVResponse(body, parseDate)
        case Success(_) =>
        case Failure(_) =>
      }
    case _ =>
  }

  /** Running a non-empty sequence is one step, then the rest. */
  lemma RunFirst(path: Path, x: Exchange, evs: seq<Event>, parseDate: string -> Option<int>)
    requires |evs| > 0
    ensures Run(path, x, evs, parseDate) == Run(path, Step(path, x, evs[0], parseDate), evs[1..], parseDate)
  {
  }

  /** After the first event of a well-formed sequence, only errors and timeouts remain. */
  lemma LateEvents(evs: seq<Event>)
    requires WellFormed(evs) && |evs| > 0
    ensures forall i :: 0 <= i < |evs[1..]| ==> evs[1..][i].Errored? || evs[1..][i].TimedOut?
  {
    forall i | 0 <= i < |evs[1..]|
      ensures evs[1..][i].Errored? || evs[1..][i].TimedOut?
    {
      assert evs[1..][i] == evs[i + 1];
    }
  }

  /** The guarded listing path never throws for a second head. */
  lemma GuardedListWritesOnce(evs: seq<Event>, parseDate: string -> Option<int>)
    requires WellFormed(evs) && |evs| > 0
    ensures Run(GuardedListPath, Initial, evs, parseDate).fault != Some(HeadersAlreadySent)
  {
    var x := Step(GuardedListPath, Initial, evs[0], parseDate);
    FirstEventNoDoubleWrite(GuardedListPath, evs[0], parseDate);
    RunFirst(GuardedListPath, Initial, evs, parseDate);
    LateEvents(evs);
    GuardedLateEventsHarmless(x, evs[1..], parseDate);
  }

  /**
   * The listing path as written answers every status other than 207 with the
   * text "undefined" where the reason phrase belongs, whatever the backend's
   * reason phrase: a 404 "Not Found" reads "Failed to list files: 404 undefined".
   */
  lemma ListFailureSaysUndefined(status: nat, message: string, headers: Headers, body: string, parseDate: string -> Option<int>)
    requires status != 207
    ensures ListStep(Initial, Responded(status, message, headers, body), parseDate).written ==
      [Response(status, ListText, Text(ListFailureBody(status, Undefined)))]
    ensures ListStep(Initial, Responded(404, "Not Found", headers, body), parseDate).written ==
      [Response(404, ListText, Text("Failed to list files: 404 undefined"))]
  {
    assert Strings.Decimal(404) == "404";
    assert ListFailureBody(404, Undefined) == "Failed to list files: 404 undefined";
  }

  /**
   * On the intended listing path a status other than 207 is reported with its
   * reason phrase, whatever follows; the answer carries the status and grants
   * any origin, and no event sequence throws for a second head.
   */
  lemma IntendedReportsReason(evs: seq<Event>, parseDate: string -> Option<int>)
    requires WellFormed(evs) && |evs| > 0 && evs[0].Responded? && evs[0].status != 207
    ensures var y := Run(IntendedListPath, Initial, evs, parseDate);
      && y.written == [Response(evs[0].status, ListText, Text(ListFailureBody(evs[0].status, evs[0].statusMessage)))]
      && y.fault.None?
  {
    var e := evs[0];
    var answer := Response(e.status, ListText, Text(ListFailureBody(e.status, e.statusMessage)));
    var x := IntendedListStep(Initial, e, parseDate);
    assert x.written == [answer] && x.fault.None?;
    RunIntended(Initial, evs, parseDate);
    LateEvents(evs);
    IntendedLateEventsHarmless(x, evs[1..], parseDate);
  }

  /** Running the intended listing path is one intended step, then the rest. */
  lemma RunIntended(x: Exchange, evs: seq<Event>, parseDate: string -> Option<int>)
    requires |evs| > 0
    ensures Run(IntendedListPath, x, evs, parseDate) == Run(IntendedListPath, IntendedListStep(x, evs[0], parseDate), evs[1..], parseDate)
  {
  }

  /** Once a head is sent, errors and timeouts leave the intended listing path's answer and fault alone. */
  lemma {:induction false} IntendedLateEventsHarmless(x: Exchange, evs: seq<Event>, parseDate: string -> Option<int>)
    requires forall i :: 0 <= i < |evs| ==> evs[i].Errored? || evs[i].TimedOut?
    requires x.HeadersSent()
    ensures Run(IntendedListPath, x, evs, parseDate).written == x.written
    ensures Run(IntendedListPath, x, evs, parseDate).fault == x.fault
    decreases |evs|
  {
    if |evs| > 0 {
      IntendedLateEventsHarmless(Step(IntendedListPath, x, evs[0], parseDate), evs[1..], parseDate);
    }
  }

  /** The intended listing path never throws for a second head. */
  lemma IntendedListWritesOnce(evs: seq<Event>, parseDate: string -> Option<int>)
    requires WellFormed(evs) && |evs| > 0
    ensures Run(IntendedListPath, Initial, evs, parseDate).fault != Some(HeadersAlreadySent)
  {
    var x := Step(IntendedListPath, Initial, evs[0], parseDate);
    FirstEventNoDoubleWrite(IntendedListPath, evs[0], parseDate);
    RunFirst(IntendedListPath, Initial, evs, parseDate);
    LateEvents(evs);
    IntendedSilentLate(x, evs[1..], parseDate);
  }

  /** Errors and timeouts on the intended path never throw for a second head. */
  lemma {:induction false} IntendedSilentLate(x: Exchange, evs: seq<Event>, parseDate: string -> Option<int>)
    requires forall i :: 0 <= i < |evs| ==> evs[i].Errored? || evs[i].TimedOut?
    requires x.fault != Some(HeadersAlreadySent)
    ensures Run(IntendedListPath, x, evs, parseDate).fault != Some(HeadersAlreadySent)
    decreases |evs|
  {
    if |evs| > 0 {
      IntendedSilentLate(Step(IntendedListPath, x, evs[0], parseDate), evs[1..], parseDate);
    }
  }
}

=== FILE: router.dfy ===
/**
 * The server's `'request'` handler up to the outbound call: it classifies the
 * inbound request and either answers at once or starts exactly one outbound
 * request.
 */
module Router {
  import opened Wrappers
  import opened Text
  import opened Http
  import opened Outbound

  /**
   * A query parameter as `url.parse(req.url, true)` delivers it: one value, or
   * an array when the parameter is repeated.
   */
  datatype QueryValue = Single(value: string) | Repeated(values: seq<string>)

  /** `pathname` is `None` when `url.parse` yields `null`. */
  datatype Request = Request(verb: string, pathname: Option<string>, query: map<string, QueryValue>, headers: Headers)

  datatype Route = Preflight | NotFound | MissingParameter | ListFiles | Forward(target: string)

  const ProxyPath: string := "/proxy"

  /** `parsedUrl.query.action === 'list'`: an array never equals a string. */
  predicate ActionIsList(query: map<string, QueryValue>) {
    "action" in query && query["action"] == Single("list")
  }

  /** `parsedUrl.query.url` is truthy: a non-empty string, or any array. */
  predicate HasUrl(query: map<string, QueryValue>) {
    "url" in query && (query["url"].Repeated? || query["url"].value != "")
  }

  /** The string `new URL(value)` parses: an array is joined with commas. */
  function UrlText(v: QueryValue): string {
    match v
    case Single(s) => s
    case Repeated(vs) => Join(vs, ",")
  }

  /**
   * The classification, in the handler's order: `OPTIONS` before the path, the
   * path before the parameters, `action=list` before `url`.
   */
  function RouteOf(req: Request): (r: Route)
    ensures r == Preflight <==> req.verb == "OPTIONS"
    ensures r == NotFound <==> req.verb != "OPTIONS" && req.pathname != Some(ProxyPath)
    ensures r == ListFiles <==> req.verb != "OPTIONS" && req.pathname == Some(ProxyPath) && ActionIsList(req.query)
    ensures r.Forward? <==>
      req.verb != "OPTIONS" && req.pathname == Some(ProxyPath) && !ActionIsList(req.query) && HasUrl(req.query)
    ensures r.Forward? ==> r.target == UrlText(req.query["url"])
    ensures r == MissingParameter <==>
      req.verb != "OPTIONS" && req.pathname == Some(ProxyPath) && !ActionIsList(req.query) && !HasUrl(req.query)
  {
    if req.verb == "OPTIONS" then Preflight
    else if req.pathname != Some(ProxyPath) then NotFound
    else if ActionIsList(req.query) then ListFiles
    else if HasUrl(req.query) then Forward(UrlText(req.query["url"]))
    else MissingParameter
  }

  const PlainText: Headers := map["Content-Type" := "text/plain"]

  const PreflightResponse: Response := Response(200, CorsHeaders, Empty)
  const NotFoundResponse: Response := Response(404, PlainText, Text("Not Found"))
  const MissingParameterResponse: Response :=
    Response(400, PlainText, Text("Missing required parameter: url or action=list"))
  const InvalidUrlResponse: Response := Response(400, PlainText, Text("Invalid URL"))

  /** What the handler does: answer at once, or start the listing or the forwarding request. */
  datatype Dispatch = Reply(response: Response) | StartList(request: OutboundRequest) | StartForward(request: OutboundRequest)

  /**
   * The handler's decision. `parseUrl` stands for `new URL(...)`, `None` when
   * it throws.
   */
  function DispatchOf(req: Request, parseUrl: string -> Option<UrlParts>): (d: Dispatch)
    ensures req.verb == "OPTIONS" ==>
      d.Reply? && d.response.status == 200 && d.response.headers == CorsHeaders && d.response.body == Empty
    ensures d.Reply? && d.response.status == 404 <==> RouteOf(req) == NotFound
    ensures d.Reply? && d.response.status == 400 <==>
      RouteOf(req) == MissingParameter || (RouteOf(req).Forward? && parseUrl(RouteOf(req).target).None?)
    ensures d.StartList? <==> RouteOf(req) == ListFiles
    ensures d.StartList? ==> d.request == ListRequest(req.headers)
    ensures d.StartForward? <==> RouteOf(req).Forward? && parseUrl(RouteOf(req).target).Some?
    ensures d.StartForward? ==> d.request == ForwardRequest(parseUrl(RouteOf(req).target).value, req.headers)
  {
    match RouteOf(req)
    case Preflight => Reply(PreflightResponse)
    case NotFound => Reply(NotFoundResponse)
    case MissingParameter => Reply(MissingParameterResponse)
    case ListFiles => StartList(ListRequest(req.headers))
    case Forward(target) =>
      match parseUrl(target)
      case None => Reply(InvalidUrlResponse)
      case Some(parts) => StartForward(ForwardRequest(parts, req.headers))
  }

  lemma PlainTextNotCors()
    ensures forall name :: name in PlainText ==> !IsCorsName(name)
  {
    assert PlainText.Keys == {"Content-Type"};
    assert |LowerAscii("Content-Type")| < 15;
  }

  /** Only the preflight answer carries CORS headers; the handler's own rejections carry none. */
  lemma RejectionsCarryNoCors(req: Request, parseUrl: string -> Option<UrlParts>)
    ensures var d := DispatchOf(req, parseUrl);
      d.Reply? && d.response.status != 200 ==> forall name :: name in d.response.headers ==> !IsCorsName(name)
  {
    var d := DispatchOf(req, parseUrl);
    if d.Reply? && d.response.status != 200 {
      assert d.response.headers == PlainText;
      PlainTextNotCors();
    }
  }

  /** `action=list` wins over a `url` parameter given alongside it. */
  lemma ListWinsOverUrl(req: Request, parseUrl: string -> Option<UrlParts>)
    requires req.verb != "OPTIONS" && req.pathname == Some(ProxyPath)
    requires ActionIsList(req.query) && HasUrl(req.query)
    ensures DispatchOf(req, parseUrl) == StartList(ListRequest(req.headers))
  {
  }

  /**
   * At most one outbound request per inbound request: a preflight and every
   * rejected request start none, the two proxy actions one each.
   */
  lemma OutboundOnlyForProxyActions(req: Request, parseUrl: string -> Option<UrlParts>)
    ensures !DispatchOf(req, parseUrl).Reply? <==>
      RouteOf(req) == ListFiles || (RouteOf(req).Forward? && parseUrl(RouteOf(req).target).Some?)
  {
  }
}

=== FILE: text.dfy ===
/**
 * String scanning as the proxy's regular expressions perform it: literal
 * search, the lazy delimited match `open(.*?)close` (leftmost start, shortest
 * body), suffix tests and the last path segment.
 */
module Text {
  import opened Wrappers

  /** `pat` occurs in `s` starting at index `i`. */
  predicate At(s: string, pat: string, i: int) {
    0 <= i && i + |pat| <= |s| && s[i..i + |pat|] == pat
  }

  /** `pat` occurs somewhere in `s`. */
  predicate Contains(s: string, pat: string) {
    exists i :: 0 <= i <= |s| && At(s, pat, i)
  }

  /** `String.prototype.endsWith`. */
  predicate EndsWith(s: string, suffix: string) {
    |suffix| <= |s| && s[|s| - |suffix|..] == suffix
  }

  /** The characters a regular-expression `.` does not match (ECMAScript line terminators). */
  predicate IsLineTerminator(c: char) {
    c == '\n' || c == '\r' || c == '\U{2028}' || c == '\U{2029}'
  }

  predicate SingleLine(s: string) {
    forall i :: 0 <= i < |s| ==> !IsLineTerminator(s[i])
  }

  /** The least index at or after `from` where `pat` occurs. */
  function Find(s: string, pat: string, from: nat): (r: Option<nat>)
    ensures r.Some? ==> from <= r.value && At(s, pat, r.value)
    ensures forall k :: from <= k && (r.None? || k < r.value) ==> !At(s, pat, k)
    decreases |s| - from
  {
    if from + |pat| > |s| then None
    else if s[from..from + |pat|] == pat then Some(from)
    else Find(s, pat, from + 1)
  }

  /**
   * The pattern `open(X*?)close` can match with `open` at `k` and `close` at `j`,
   * where `X` is any character when `dotAll` holds (`[\s\S]`) and any character
   * but a line terminator otherwise (`.`).
   */
  predicate Delimits(s: string, open: string, close: string, dotAll: bool, k: int, j: int) {
    && At(s, open, k)
    && At(s, close, j)
    && k + |open| <= j
    && (dotAll || SingleLine(s[k + |open|..j]))
  }

  /**
   * The match `RegExp.prototype.exec` finds for `open(X*?)close` when it starts
   * scanning at `from`: the leftmost opening index that admits any match, and
   * for it the nearest closing delimiter. The result is the pair (open index,
   * close index).
   */
  function LazyMatch(s: string, open: string, close: string, dotAll: bool, from: nat): (r: Option<(nat, nat)>)
    requires |open| > 0
    ensures r.Some? ==> from <= r.value.0 && Delimits(s, open, close, dotAll, r.value.0, r.value.1)
    ensures r.Some? ==> forall j :: r.value.0 + |open| <= j < r.value.1 ==> !At(s, close, j)
    ensures forall k, j :: from <= k && (r.None? || k < r.value.0) ==> !Delimits(s, open, close, dotAll, k, j)
    decreases |s| - from
  {
    match Find(s, open, from)
    case None => None
    case Some(k) =>
      match Find(s, close, k + |open|)
      case None => None
      case Some(j) =>
        if dotAll || SingleLine(s[k + |open|..j]) then Some((k, j))
        else
          var r := LazyMatch(s, open, close, dotAll, k + 1);
          assert forall j' :: !Delimits(s, open, close, dotAll, k, j') by {
            forall j' | At(s, close, j') && k + |open| <= j'
              ensures !SingleLine(s[k + |open|..j'])
            {
              var t :| 0 <= t < |s[k + |open|..j]| && IsLineTerminator(s[k + |open|..j][t]);
              assert s[k + |open|..j'][t] == s[k + |open|..j][t];
            }
          }
          r
  }

  /**
   * The first capture group of `s.match(/open(.*?)close/)`: the text between
   * the delimiters of the leftmost single-line match, if any. Of the openings
   * that admit a match the first is taken, and for it the nearest close.
   */
  function TagContent(s: string, open: string, close: string): (r: Option<string>)
    requires |open| > 0
    ensures r.None? <==> forall k, j :: !Delimits(s, open, close, false, k, j)
    ensures r.Some? ==> SingleLine(r.value)
    ensures r.Some? ==> exists k, j ::
      && Delimits(s, open, close, false, k, j)
      && r.value == s[k + |open|..j]
      && (forall k', j' :: k' < k ==> !Delimits(s, open, close, false, k', j'))
      && (forall j' :: k + |open| <= j' < j ==> !At(s, close, j'))
  {
    match LazyMatch(s, open, close, false, 0)
    case None => None
    case Some((k, j)) => Some(s[k + |open|..j])
  }

  /** A body that stops at the nearest close contains no close of its own. */
  lemma CloseFreeBody(s: string, open: string, close: string, k: nat, j: nat)
    requires |close| > 0 && k + |open| <= j <= |s|
    requires forall j' :: k + |open| <= j' < j ==> !At(s, close, j')
    ensures !Contains(s[k + |open|..j], close)
  {
    var body := s[k + |open|..j];
    forall t | 0 <= t && t + |close| <= |body|
      ensures !At(body, close, t)
    {
      var lo := k + |open| + t;
      var inner, outer := body[t..t + |close|], s[lo..lo + |close|];
      assert forall m :: 0 <= m < |inner| ==> inner[m] == outer[m];
      assert inner == outer;
      assert !At(s, close, k + |open| + t);
    }
  }

  /** The decimal digits of a number, as a template literal prints it. */
  function Decimal(n: nat): string {
    if n < 10 then ["0123456789"[n]] else Decimal(n / 10) + ["0123456789"[n % 10]]
  }

  /**
   * The element `.split('/').pop()` returns: everything after the last '/',
   * or the whole string when it has none.
   */
  function LastSegment(s: string): (r: string)
    ensures EndsWith(s, r)
    ensures '/' !in r
    ensures |r| == |s| || s[|s| - |r| - 1] == '/'
  {
    if |s| == 0 then []
    else if s[|s| - 1] == '/' then []
    else LastSegment(s[..|s| - 1]) + [s[|s| - 1]]
  }

  /** A suffix free of '/' survives into the last segment. */
  lemma {:induction false} LastSegmentKeepsSuffix(s: string, suffix: string)
    requires EndsWith(s, suffix)
    requires '/' !in suffix
    ensures EndsWith(LastSegment(s), suffix)
  {
    var r := LastSegment(s);
    assert |r| >= |suffix|;
    assert r[|r| - |suffix|..] == s[|s| - |suffix|..];
  }

  /** `Array.prototype.join(sep)` over strings. */
  function Join(parts: seq<string>, sep: string): string {
    if |parts| == 0 then []
    else if |parts| == 1 then parts[0]
    else parts[0] + sep + Join(parts[1..], sep)
  }
}

=== FILE: utf8.dfy ===
/**
 * UTF-8 (RFC 3629), the encoding `Buffer.from(string)` applies before the
 * credential pair is base64-encoded, with the strict decoder that inverts it.
 */
module Utf8 {
  import opened Wrappers
  import opened Bytes

  predicate IsScalar(cp: int) {
    (0 <= cp < 0xD800) || (0xE000 <= cp < 0x11_0000)
  }

  /** The one to four octets that encode one character. */
  function EncodeChar(c: char): (b: seq<byte>)
    ensures 1 <= |b| <= 4
  {
    var cp := c as int;
    if cp < 0x80 then [cp]
    else if cp < 0x800 then [0xC0 + cp / 64, 0x80 + cp % 64]
    else if cp < 0x1_0000 then [0xE0 + cp / 4096, 0x80 + (cp / 64) % 64, 0x80 + cp % 64]
    else [0xF0 + cp / 262144, 0x80 + (cp / 4096) % 64, 0x80 + (cp / 64) % 64, 0x80 + cp % 64]
  }

  function Encode(s: string): (b: seq<byte>)
    ensures |s| <= |b| <= 4 * |s|
  {
    if |s| == 0 then [] else EncodeChar(s[0]) + Encode(s[1..])
  }

  predicate IsContinuation(x: byte) {
    0x80 <= x < 0xC0
  }

  /**
   * The first character of `b` and the number of octets it takes, rejecting
   * overlong forms, surrogates and values above U+10FFFF.
   */
  function DecodeFirst(b: seq<byte>): (r: Option<(char, nat)>)
    requires |b| > 0
    ensures r.Some? ==> 1 <= r.value.1 <= |b|
  {
    var lead := b[0] as int;
    if lead < 0x80 then Some((lead as char, 1))
    else if lead < 0xC0 then None
    else if lead < 0xE0 then
      if |b| < 2 || !IsContinuation(b[1]) then None
      else
        var cp := (lead - 0xC0) * 64 + (b[1] as int - 0x80);
        if cp < 0x80 then None else Some((cp as char, 2))
    else if lead < 0xF0 then
      if |b| < 3 || !IsContinuation(b[1]) || !IsContinuation(b[2]) then None
      else
        var cp := (lead - 0xE0) * 4096 + (b[1] as int - 0x80) * 64 + (b[2] as int - 0x80);
        if cp < 0x800 || !IsScalar(cp) then None else Some((cp as char, 3))
    else
      if |b| < 4 || !IsContinuation(b[1]) || !IsContinuation(b[2]) || !IsContinuation(b[3]) then None
      else
        var cp := (lead - 0xF0) * 262144 + (b[1] as int - 0x80) * 4096 + (b[2] as int - 0x80) * 64 + (b[3] as int - 0x80);
        if cp < 0x1_0000 || !IsScalar(cp) then None else Some((cp as char, 4))
  }

  function Decode(b: seq<byte>): Option<string>
    decreases |b|
  {
    if |b| == 0 then Some([])
    else
      match DecodeFirst(b)
      case None => None
      case Some((c, n)) =>
        match Decode(b[n..])
        case None => None
        case Some(rest) => Some([c] + rest)
  }

  lemma TwoOctets(cp: int)
    requires 0x80 <= cp < 0x800
    ensures 0xC0 <= 0xC0 + cp / 64 < 0xE0 && (cp / 64) * 64 + cp % 64 == cp
  {
  }

  lemma ThreeOctets(cp: int)
    requires 0x800 <= cp < 0x1_0000
    ensures 0xE0 <= 0xE0 + cp / 4096 < 0xF0
    ensures (cp / 4096) * 4096 + ((cp / 64) % 64) * 64 + cp % 64 == cp
  {
  }

  lemma FourOctets(cp: int)
    requires 0x1_0000 <= cp < 0x11_0000
    ensures 0xF0 <= 0xF0 + cp / 262144 < 0xF5
    ensures (cp / 262144) * 262144 + ((cp / 4096) % 64) * 4096 + ((cp / 64) % 64) * 64 + cp % 64 == cp
  {
  }

  lemma CharRoundTrip(c: char, rest: seq<byte>)
    ensures DecodeFirst(EncodeChar(c) + rest) == Some((c, |EncodeChar(c)|))
  {
    var cp := c as int;
    var b := EncodeChar(c) + rest;
    assert IsScalar(cp);
    if cp < 0x80 {
    } else if cp < 0x800 {
      TwoOctets(cp);
      assert b[0] == 0xC0 + cp / 64 && b[1] == 0x80 + cp % 64;
    } else if cp < 0x1_0000 {
      ThreeOctets(cp);
      assert b[0] == 0xE0 + cp / 4096 && b[1] == 0x80 + (cp / 64) % 64 && b[2] == 0x80 + cp % 64;
    } else {
      FourOctets(cp);
      assert b[0] == 0xF0 + cp / 262144 && b[1] == 0x80 + (cp / 4096) % 64;
      assert b[2] == 0x80 + (cp / 64) % 64 && b[3] == 0x80 + cp % 64;
    }
  }

  /** Decoding inverts encoding. */
  lemma {:induction false} DecodeEncode(s: string)
    ensures Decode(Encode(s)) == Some(s)
  {
    if |s| > 0 {
      var e := EncodeChar(s[0]);
      CharRoundTrip(s[0], Encode(s[1..]));
      assert (e + Encode(s[1..]))[|e|..] == Encode(s[1..]);
      DecodeEncode(s[1..]);
      assert s == [s[0]] + s[1..];
    }
  }

  lemma SplitTwo(x0: int, x1: int)
    requires 0 <= x0 < 32 && 0 <= x1 < 64
    ensures (x0 * 64 + x1) / 64 == x0 && (x0 * 64 + x1) % 64 == x1
  {
  }

  lemma SplitThree(x0: int, x1: int, x2: int)
    requires 0 <= x0 < 16 && 0 <= x1 < 64 && 0 <= x2 < 64
    ensures var cp := x0 * 4096 + x1 * 64 + x2;
      cp / 4096 == x0 && (cp / 64) % 64 == x1 && cp % 64 == x2
  {
    var cp := x0 * 4096 + x1 * 64 + x2;
    assert cp / 64 == x0 * 64 + x1;
  }

  lemma SplitFour(x0: int, x1: int, x2: int, x3: int)
    requires 0 <= x0 < 8 && 0 <= x1 < 64 && 0 <= x2 < 64 && 0 <= x3 < 64
    ensures var cp := x0 * 262144 + x1 * 4096 + x2 * 64 + x3;
      cp / 262144 == x0 && (cp / 4096) % 64 == x1 && (cp / 64) % 64 == x2 && cp % 64 == x3
  {
    var cp := x0 * 262144 + x1 * 4096 + x2 * 64 + x3;
    assert cp / 64 == x0 * 4096 + x1 * 64 + x2;
    assert cp / 4096 == x0 * 64 + x1;
  }

  lemma FirstRoundTrip(b: seq<byte>)
    requires |b| > 0 && DecodeFirst(b).Some?
    ensures EncodeChar(DecodeFirst(b).value.0) == b[..DecodeFirst(b).value.1]
  {
    var lead := b[0] as int;
    var (c, n) := DecodeFirst(b).value;
    if lead < 0x80 {
      assert b[..1] == [b[0]];
    } else if lead < 0xE0 {
      SplitTwo(lead - 0xC0, b[1] as int - 0x80);
      assert b[..2] == [b[0], b[1]];
    } else if lead < 0xF0 {
      SplitThree(lead - 0xE0, b[1] as int - 0x80, b[2] as int - 0x80);
      assert b[..3] == [b[0], b[1], b[2]];
    } else {
      SplitFour(lead - 0xF0, b[1] as int - 0x80, b[2] as int - 0x80, b[3] as int - 0x80);
      assert b[..4] == [b[0], b[1], b[2], b[3]];
    }
  }

  /** Encoding inverts decoding: the decoder accepts only the encodings of strings. */
  lemma {:induction false} EncodeDecode(b: seq<byte>)
    requires Decode(b).Some?
    ensures Encode(Decode(b).value) == b
    decreases |b|
  {
    if |b| > 0 {
      var (c, n) := DecodeFirst(b).value;
      FirstRoundTrip(b);
      EncodeDecode(b[n..]);
      var s := Decode(b).value;
      assert s[0] == c && s[1..] == Decode(b[n..]).value;
      assert b == b[..n] + b[n..];
    }
  }
}

=== FILE: wrappers.dfy ===
/** Option and Result: the absent values and the thrown exceptions of the proxy. */
module Wrappers {

  /** A value that may be missing (JavaScript `undefined`/`null`). */
  datatype Option<+T> = None | Some(value: T)

  /** The outcome of a computation that can throw. */
  datatype Result<+R, +E> = Success(value: R) | Failure(error: E) {

    predicate IsFailure() {
      Failure?
    }

    function PropagateFailure<U>(): Result<U, E>
      requires Failure?
    {
      Failure(error)
    }

    function Extract(): R
      requires Success?
    {
      value
    }
  }
}
